=== FILE: README.md ===
# AngelscriptGenerator binding generator, modelled in Dafny

AngelscriptGenerator reads the Doxygen symbol table of a C++ code base and writes
one C++ header, `angelscript_symbols_cpp.h`. The header registers the requested
classes with the AngelScript engine. This project models the decision logic of
`Program.cs` as pure functions over immutable symbol datatypes:

- reading the `ascript:` directive out of a class's attributes;
- deciding value or reference semantics;
- composing the `asOBJ_*` flags of the type registration;
- choosing and naming the constructor and destructor trampolines;
- building each member's AngelScript signature, or the comment that disables it;
- the order in which `Main` writes its passes, and the types it seeds as known.

Modules, one file each:

- `Wrappers`: an `Option` type.
- `Strings`: the .NET string operations used, defined in Dafny, and two sequence helpers of the model's own.
  - Ordinal `Contains` and `Replace`, and `StartsWith` and `EndsWith`, which are also compared ordinally (see Left out).
  - `Trim`, using the `Char.IsWhiteSpace` set.
  - `Join`, which models the loop that joins parameter types with commas (Program.cs:290-298). The program makes no `String.Join` call.
  - `Split`, the model's own reading of a flags string into its `|`-separated pieces, used only in lemmas about `ObjectType.FlagTokens`. The program makes no `Split` call.
- `Symbols`: the symbol datatypes. The results of the symbol library's helpers are fields of these datatypes.
- `Attributes`: the directive search.
- `Classifier`: `IsReferenceType`.
- `ObjectType`: `RegisterObjectType`.
- `Trampolines`: `GenerateCtorFunctions`.
- `Bindings`: `GenerateBindingsFile`.
- `Generator`: `Main`.

The member registrations and the run take an `Edition`. `AsWritten` writes exactly what `Program.cs` writes. `Corrected` fixes the two defects listed under Findings: the factory registration names the factory trampoline, and every member's text ends its line.

Output is returned, never written. A run yields the file's text and the console lines as an `Output` value. The symbol table loaded from the documentation directory is a parameter of type `map<string, ClassSymbol>`.

The program does not do the following; neither does the model:

- The classifier has no rule for virtual members or signals.
- A destructor trampoline is written for every public destructor, reference types included.
- A requested class missing from the table is reported three times, once per pass.
- Increment, decrement and index operators are not excluded.
- The parameter-list mangling is not collision-free (`Trampolines.MangleCollides`).
- The only type spelling rewritten is `std::string` to `string`.

## Model

| member | source | states |
|---|---|---|
| Strings.ContainsOccurs | Program.cs:115-117 | Ordinal `String.Contains`: the text contains the fragment exactly when the fragment occurs at some position of the text |
| Strings.Trim | Program.cs:107 | The trimmed text has no white space at either end and is no longer than the input |
| Strings.TrimSlice | Program.cs:107 | The trimmed text is a slice of the input, and everything cut off on either side is white space |
| Attributes.MatchAt | Program.cs:105 | A match at a position needs the keyword there; the captured text never contains a line feed, because `.` stops at one |
| Attributes.MatchAtNeedsColon | Program.cs:105 | The pattern matches at a position exactly when `ascript` starts there and a colon follows it after optional whitespace |
| Attributes.MatchAtCapture | Program.cs:105-107 | For `ascript`, whitespace, `:`, whitespace, then a non-empty capture not starting with whitespace and running to the end of the line, the group is exactly that capture |
| Attributes.SearchFromFails | Program.cs:105 | The search from a position fails exactly when no position from there on matches |
| Attributes.SearchFromFinds | Program.cs:105 | A successful search from a position returns the capture of a matching position with no match between the start and it |
| Attributes.SearchLeftmost | Program.cs:105-106 | `Regex.Match` on a whole attribute fails exactly when no position matches, and otherwise returns the capture of the leftmost match |
| Attributes.SearchNeedsKeyword | Program.cs:105 | An attribute can only match if it contains `ascript` |
| Attributes.AngelscriptFlags | Program.cs:101-110 | The directive's flags are always trimmed |
| Attributes.NoDirectiveNoFlags | Program.cs:103-109 | When no attribute matches, the flags are `""` |
| Attributes.FirstDirectiveDecides | Program.cs:103-107 | The flags are the trimmed capture of the first attribute that matches; later attributes do not matter |
| Attributes.DirectiveExample | Program.cs:105-107 | The attribute `ascript : asOBJ_REF ` yields exactly `asOBJ_REF` |
| Attributes.NoScriptIsNoDirective | Program.cs:105-106 | The attribute `noascript` contains the keyword but yields no flags, because no colon follows it |
| Classifier.ReferenceTypeRules | Program.cs:112-151 | Flags containing `asOBJ_REF` give a reference type, before `asOBJ_VALUE` gives a value type. Without either, the class is a reference type exactly when it is abstract, or has constructors none of them public, or has a non-public copy constructor, `operator=` child or destructor |
| Classifier.FirstMatch | Program.cs:112-151 | In a rule table the first rule that fires decides, and the default applies when none fires |
| Classifier.ClassifierIsFirstMatch | Program.cs:112-151 | The classifier equals the first-match reading of its seven ordered rules, with value semantics as the default |
| Classifier.AbstractIsReference | Program.cs:120-122 | When the flags name neither `asOBJ_REF` nor `asOBJ_VALUE`, an abstract class is a reference type |
| Classifier.AllPublicIsValue | Program.cs:124-151 | When the flags name neither semantics, a concrete class with a public constructor and no non-public copy constructor, `operator=` or destructor is a value type |
| ObjectType.BaseFlags | Program.cs:172-179 | Non-empty explicit flags are used verbatim; otherwise reference types get `asOBJ_REF \| asOBJ_NOCOUNT` and value types `asOBJ_VALUE \| asOBJ_POD` |
| ObjectType.AppClassBits | Program.cs:164-187 | No bits for a reference type; for a value type each `asOBJ_APP_CLASS_*` bit is present exactly when its member exists |
| ObjectType.ObjectTypeFlags | Program.cs:181-187 | A reference type is registered with its base flags unchanged |
| ObjectType.RegisterObjectType | Program.cs:189 | The object-type line registers the class under its own name and `sizeof`, carries exactly the flags `ObjectType.ObjectTypeFlags` chooses, and ends its line |
| ObjectType.FlagTokensAppendBits | Program.cs:183-186 | Appending ` \| bit` for each bit adds exactly those bit names, in order, to the flag names the engine reads |
| ObjectType.ObjectTypeFlagTokens | Program.cs:172-189 | The registered flags name the base flags followed by the application-class bits |
| ObjectType.DefaultRefFlagTokens | Program.cs:176 | The default reference flags name `asOBJ_REF` and `asOBJ_NOCOUNT` |
| ObjectType.DefaultValueFlagTokens | Program.cs:178 | The default value flags name `asOBJ_VALUE` and `asOBJ_POD` |
| Trampolines.Mangle | Program.cs:219 | The mangled token contains no comma, space, `&` or `*` |
| Trampolines.MangleIdentity | Program.cs:219 | A list with none of those characters is its own token |
| Trampolines.MangleSeparator | Program.cs:219 | A comma or a space between two words becomes one underscore |
| Trampolines.MangleCollides | Program.cs:219 | `unsigned int` and `unsigned,int` get the same token |
| Trampolines.TrampolineName | Program.cs:203-249 | A child gets a trampoline exactly when it is public and either a constructor of a non-abstract class or a destructor; it is `<class>_Factory_<token>` for a reference type's constructor, `<class>_ctor_<token>` for a value type's, and `<class>_dtor` for a destructor |
| Trampolines.Trampoline | Program.cs:213-249 | The text is empty exactly when the child gets no trampoline; otherwise it opens with the declaration of the named function, a pointer-returning factory for a reference type. A reference type's constructor body returns `new <class><args>`, a value type's does `new(self) <class><args>`, and a destructor's calls `~<class>()` on the memory |
| Trampolines.AbstractClassTrampolines | Program.cs:205-216 | An abstract class, or one without public constructors, and without public destructors, gets no trampolines at all |
| Bindings.ScanLists | Program.cs:287-298 | After the parameter loop, the parameter list is the comma-joined parameter types, and the signature is the comma-joined types with their direction suffixes |
| Bindings.ExclusionBeforeScan | Program.cs:270-281 | A member is still exposable when the parameter loop starts exactly when it has no `noascript` attribute and its return type is known |
| Bindings.ScanGood | Program.cs:299-316 | The member stays exposable through the loop exactly when it was before it and every parameter has a clear direction and a known basic type |
| Bindings.ScanAmbiguousReason | Program.cs:305-309 | An ambiguous reference leaves the inout reason alone, overwriting every earlier one |
| Bindings.ScanKeepsReason | Program.cs:299-316 | Without an ambiguous reference, the reason is unchanged when the member was already excluded or every basic type is known |
| Bindings.ScanFirstUnknown | Program.cs:312-316 | Without an ambiguous reference, only the first unknown basic type of a still exposable member is added to the reason |
| Bindings.FunctionVerdict | Program.cs:270-345 | A function member is exposable exactly when none of the exclusion rules applies: no `noascript`, a known return type, clear directions, known basic types, at most 16 parameters, and not `operator!=`, a relational operator or a conversion operator. Its lists are the joined parameter types, and the signature spells `std::string` as `string` |
| Bindings.EarlyReasons | Program.cs:270-318 | Without the operator exclusions, an ambiguous reference gives the inout reason alone; otherwise `noascript` gives its reason alone, and without `noascript` an unknown return type is the only reason |
| Bindings.FirstUnknownParameterReported | Program.cs:312-316 | The first parameter with an unknown basic type is the one reported |
| Bindings.TooManyParameters | Program.cs:324-328 | More than 16 parameters exclude an otherwise exposable member, with that as its only reason |
| Bindings.ParameterAnnotation | Program.cs:297-310 | A parameter that is not a reference is spelled as its type; an `in` or `out` reference gets that suffix; an ambiguous reference excludes its member |
| Bindings.ComparisonOperatorsExcluded | Program.cs:330-339 | `operator!=` and the relational operators are excluded whatever their types, and the reason ends with the message for the operator that replaces them |
| Bindings.OrdinaryNameUnchanged | Program.cs:373-376 | A name containing none of `operator+`, `operator-`, `operator*`, `operator/` or `operator==` keeps its name in the script |
| Bindings.WithoutArithmeticSymbol | Program.cs:374-376 | A name without `+`, `-`, `*` or `/` is affected only by the `operator==` replacement |
| Bindings.ArithmeticOperatorNames | Program.cs:374-376 | `operator+`, `-`, `*` and `/` map to `opAdd`, `opSub`, `opMul` and `opDiv`; their compound forms map to `opAdd=` and so on, shadowed by the earlier replacements |
| Bindings.EqualityOperatorName | Program.cs:376 | `operator==` maps to `opEquals` |
| Bindings.ScriptDeclaration | Program.cs:377-378 | The script declaration starts with the return type with `std::string` spelled `string`, contains the mapped operator name followed by the annotated signature in parentheses, and ends in ` const` exactly for a const method |
| Bindings.MethodRegistration | Program.cs:377-379 | A method registration starts with the registration call and the script declaration, binds the C++ method under its source name with its parameter types, and ends its line |
| Bindings.FunctionText | Program.cs:346-381 | An exposable function's text starts with a tab; an excluded one starts with `// /*` reason `*/ ` and a tab, so it is commented out and never dropped; in the corrected edition the text ends its line |
| Bindings.VariableCommentFirstReason | Program.cs:385-390 | Against the list of every reason that applies, in the order tested: the comment is empty exactly when there is none, and otherwise carries only the first |
| Bindings.VariableComment | Program.cs:383-390 | A variable gets no comment exactly when its type is known and it is neither an array nor static; otherwise it gets one comment: the unknown-type message, else the array message, else the static message |
| Bindings.VariableText | Program.cs:383-392 | A variable's text starts with its disabling comment, if any, then a tab; it registers the declared type and name, and ends its line |
| Bindings.VariablesIgnoreNoScript | Program.cs:383-392 | A `noascript` attribute, which Program.cs:270 reads for every member, does not change a variable's text |
| Bindings.MemberText | Program.cs:264-393 | A child produces text exactly when it is a public function or variable; a variable's text ends its line, and in the corrected edition every text does |
| Bindings.StaticPlaceholderOpensComment | Program.cs:369-370 | As written, the static-method placeholder leaves a `//` comment open on its line |
| Bindings.ClassBindingsCloseEveryLine | Program.cs:264-395 | In the corrected edition, with every member's text ending its line, no comment is open where the next member's text starts |
| Bindings.CtorTextNames | Program.cs:351-360 | The text written for a constructor of a non-abstract class refers to the name its edition registers: `<class>_ctor_<token>` as written, and `<class>_Factory_<token>` for a reference type when corrected |
| Bindings.FactoryNameMismatch | Program.cs:358 | As written, a reference type's factory registration text names `<class>_ctor_<token>`, which differs from its trampoline `<class>_Factory_<token>` written at Program.cs:229 |
| Bindings.ValueCtorNameAgrees | Program.cs:360 | For a public constructor of a non-abstract value type, the registration text as written names `<class>_ctor_<token>`, which is the trampoline written at Program.cs:236, when both parameter lists mangle alike |
| Bindings.RegistrationsReferToTrampolines | Program.cs:353-360 | In the corrected edition, a public constructor of a non-abstract class is registered, in the text written, under exactly the name of its trampoline (Program.cs:227-236), when both parameter lists mangle alike |
| Bindings.AbstractCtorNotRegistered | Program.cs:351-362 | An abstract class's constructor is not registered: as written its statement is empty, corrected it is an empty line |
| Bindings.DtorRegistrationMentions | Program.cs:365 | A destructor's registration refers to `<class>_dtor` |
| Bindings.DtorRegistrationRefersToTrampoline | Program.cs:365 | A public destructor's trampoline (Program.cs:245) is `<class>_dtor`, the name its registration refers to |
| Generator.KnownTypes | Program.cs:25-46 | The known types are exactly the fixed ones (including `""` and `std::string`) and every requested name, with the fixed ones first |
| Generator.MissingNamesMeans | Program.cs:156-160 | The missing names are exactly the requested names the table lacks, and there are no more of them than requested names |
| Generator.MissingNamesDistributes | Program.cs:156-160 | Missing names keep request order and multiplicity: one name is missing exactly when the table lacks it, and a concatenation's missing names are each part's, in turn |
| Generator.Console | Program.cs:75-96 | The console gets 3 × missing + 1 lines, and the closing line comes last |
| Generator.ConsoleReportsMissing | Program.cs:75-89 | Each pass (the checks at Program.cs:195-199, 156-160 and 256-260, in that order) reports every missing class once, in request order: the i-th missing class is reported at the same place in each of the three passes |
| Generator.NothingMissingConsole | Program.cs:75-96 | When every requested class is in the table, the console gets only the closing line |
| Generator.Run | Program.cs:18-96 | With fewer than two arguments only the usage line is printed and the file is empty; otherwise the file starts with the preamble and ends with the closing brace, and the console is that of the requested names; the `AsWritten` edition is `Main` |
| Generator.MissingClassSilent | Program.cs:254-260 | A requested class missing from the table contributes no text to any pass (the same early return is at Program.cs:156-160 and 195-199), and the classes after it are still written |
| Generator.SilentPass | Program.cs:75-89 | A pass over requested classes that are all missing writes nothing |
| Generator.PassFollowsRequestOrder | Program.cs:75-89 | Every pass writes the classes in argument order |
| Generator.SinglePass | Program.cs:75-89 | A pass over one requested class writes exactly that class's text for the pass |
| Generator.SingleClassRun | Program.cs:45-91 | For one class found in the table, the passes write its trampolines, then the registration function's opening, then its type registration, two newlines and its member registrations; its name is a known type |
| Generator.NothingFoundRun | Program.cs:73-91 | When no requested class is in the table, the passes write only the registration function's opening and two newlines |

## Left out

- File and console I/O: the `StreamWriter`, `Write`, `Flush`, `Close` and `Console.WriteLine`. A run returns the file text and the console lines instead.
- Loading the symbol table from the documentation directory (`LoadSymbolsFromDirectory`). The table is a parameter.
- The symbol library (`DocGenerator`) is not part of this model. The results of its helpers are fields of the symbol datatypes:
  - `IsClassAbstract`;
  - `AllClassCtors`, reduced to the constructors' visibilities;
  - `ClassCtor`, `ClassCopyCtor`, `ClassDtor` and `ClassAssignmentOperator`, each reduced to an optional visibility;
  - `FindChildByName("operator=")`;
  - `BasicType` and `IsArray`;
  - `FunctionParameterListWithoutNames`, `ArgStringWithTypes` and `ArgStringWithoutTypes`.
- The argument strings have at least two characters, because `Substring(1, Length - 2)` throws on shorter ones. The exception path is not modelled.
- `FetchFunctionOverloads`: its result is never used.
- The unused `funcPtrType` string and the unused inner argument list `args2`.
- Bindings.RegistrationsReferToTrampolines: assumes that the library's `FunctionParameterListWithoutNames` mangles to the same token as the comma-joined parameter types, because that helper is not part of this model.
- Bindings.FunctionText: promises a final line break only in the `Corrected` edition, because the source omits it after the factory, destructor, static-method and abstract-constructor texts (see Findings).
- Bindings.MemberText: promises a final line break for every text only in the `Corrected` edition, for the same reason.
- Bindings.ValueCtorNameAgrees: assumes, like `Bindings.RegistrationsReferToTrampolines`, that `FunctionParameterListWithoutNames` mangles like the comma-joined parameter types.
- Culture-sensitive comparison: `String.StartsWith(string)` and `String.EndsWith(string)` (Program.cs:299, Program.cs:341) compare with the current culture. The model compares them ordinally, so characters a culture ignores are not ignored.
- Attributes.MatchAtCapture: does not cover an empty capture or one that starts with whitespace, because there the greedy `\s*` after the colon takes that whitespace too, line feeds included, and the capture starts later.
- Bindings.VariableText: writes the name of the class whose children are being listed, where Program.cs:392 writes `f.parent.name`. The two agree when every member's parent is the class that lists it; the symbol table is taken to have that shape.
- Generator.Run: states only the file's first and last parts. The middle is `Sections`, whose parts are stated by `Generator.SingleClassRun`, `Generator.PassFollowsRequestOrder` and `Generator.MissingClassSilent`.

## Findings

| source | as written | input that shows it | evidently intended | confidence | as-written member | corrected member |
|---|---|---|---|---|---|---|
| Program.cs:358 | A reference type's factory registration refers to `<class>_ctor_<token>`, but the trampoline written at Program.cs:229 is `<class>_Factory_<token>`, so the generated header refers to a function it never defines | Class `Widget` with attribute `ascript: asOBJ_REF` and a public constructor `Widget()`: the trampoline is `Widget_Factory_`, the registration names `Widget_ctor_` | The registration names the factory trampoline `<class>_Factory_<token>` | high, not executed | Bindings.FactoryNameMismatch | Bindings.RegistrationsReferToTrampolines |
| Program.cs:370 | The placeholder `//.classmethod(` for a public static method is written without a line break, so the next member's registration lands in that comment and is never compiled. The factory (Program.cs:358) and destructor (Program.cs:365) registrations also lack the line break; they swallow the next member when they are themselves commented out | Class `Vec2` with a public `static Vec2 Zero()` followed by a public `float Length() const`: the line reads `\t//.classmethod(\tr = engine->RegisterObjectMethod("Vec2", ...` | Each member's text ends its own line | high, not executed | Bindings.StaticPlaceholderOpensComment | Bindings.ClassBindingsCloseEveryLine |

=== FILE: attributes.dfy ===
/** Reading the `ascript:` directive out of a class's attribute strings
    (Program.cs:101-110). The regular expression `ascript\s*:\s*(.*)` is
    modelled exactly: the match is the leftmost one, `\s` is whitespace
    including line breaks, and `.` is any character except a line feed. */
module Attributes {
  import opened Wrappers
  import opened Strings

  const Keyword: string := "ascript"

  /** First index at or after `i` that is not whitespace (or the end). */
  function SkipWhiteSpace(s: string, i: nat): (j: nat)
    requires i <= |s|
    ensures i <= j <= |s|
    ensures AllWhiteSpace(s[i..j])
    ensures j == |s| || !IsWhiteSpace(s[j])
    decreases |s| - i
  {
    if i < |s| && IsWhiteSpace(s[i]) then SkipWhiteSpace(s, i + 1) else i
  }

  /** First line feed at or after `i` (or the end): where `.*` stops. */
  function LineEnd(s: string, i: nat): (j: nat)
    requires i <= |s|
    ensures i <= j <= |s|
    ensures '\n' !in s[i..j]
    ensures j == |s| || s[j] == '\n'
    decreases |s| - i
  {
    if i < |s| && s[i] != '\n' then LineEnd(s, i + 1) else i
  }

  /** The regular expression tried at start position `i`: the text of the
      capture group when it matches there. */
  function MatchAt(s: string, i: nat): (g: Option<string>)
    requires i <= |s|
    ensures g.Some? ==> OccursAt(s, Keyword, i)
    ensures g.Some? ==> '\n' !in g.value
  {
    if i + |Keyword| <= |s| && s[i..i + |Keyword|] == Keyword then
      var j := SkipWhiteSpace(s, i + |Keyword|);
      if j < |s| && s[j] == ':' then
        var k := SkipWhiteSpace(s, j + 1);
        Some(s[k..LineEnd(s, k)])
      else None
    else None
  }

  /** `\s*` consumes exactly a whitespace run that ends at a non-whitespace
      character or at the end of the text. */
  lemma {:induction false} SkipWhiteSpaceOver(s: string, i: nat, w: string)
    requires i + |w| <= |s| && s[i..i + |w|] == w && AllWhiteSpace(w)
    requires i + |w| == |s| || !IsWhiteSpace(s[i + |w|])
    ensures SkipWhiteSpace(s, i) == i + |w|
    decreases |w|
  {
    if |w| > 0 {
      assert s[i] == w[0];
      assert s[i + 1..i + 1 + |w[1..]|] == w[1..];
      SkipWhiteSpaceOver(s, i + 1, w[1..]);
    }
  }

  /** `.*` consumes exactly a run without line feeds that ends at a line
      feed or at the end of the text. */
  lemma {:induction false} LineEndOver(s: string, i: nat, g: string)
    requires i + |g| <= |s| && s[i..i + |g|] == g && '\n' !in g
    requires i + |g| == |s| || s[i + |g|] == '\n'
    ensures LineEnd(s, i) == i + |g|
    decreases |g|
  {
    if |g| > 0 {
      assert s[i] == g[0];
      assert s[i + 1..i + 1 + |g[1..]|] == g[1..];
      LineEndOver(s, i + 1, g[1..]);
    }
  }

  /** The pattern matches at position `i` exactly when the keyword starts
      there and, after optional whitespace, a colon follows. */
  lemma MatchAtNeedsColon(s: string, i: nat)
    requires i <= |s|
    ensures MatchAt(s, i).Some? <==>
              OccursAt(s, Keyword, i)
              && SkipWhiteSpace(s, i + |Keyword|) < |s|
              && s[SkipWhiteSpace(s, i + |Keyword|)] == ':'
  {
  }

  /** The match at `i` once the ends of both whitespace runs are known. */
  lemma MatchAtSteps(s: string, i: nat, j: nat, k: nat)
    requires OccursAt(s, Keyword, i) && SkipWhiteSpace(s, i + |Keyword|) == j
    requires j < |s| && s[j] == ':' && SkipWhiteSpace(s, j + 1) == k
    ensures MatchAt(s, i) == Some(s[k..LineEnd(s, k)])
  {
  }

  /** The match at `i` read off the positions of its parts: the keyword,
      whitespace `w1`, the colon, whitespace `w2` and the capture `g`. */
  lemma MatchAtParts(s: string, i: nat, w1: string, w2: string, g: string)
    requires i + |Keyword| + |w1| + 1 + |w2| + |g| <= |s|
    requires s[i..i + |Keyword|] == Keyword
    requires s[i + |Keyword|..i + |Keyword| + |w1|] == w1 && AllWhiteSpace(w1)
    requires s[i + |Keyword| + |w1|] == ':'
    requires s[i + |Keyword| + |w1| + 1..i + |Keyword| + |w1| + 1 + |w2|] == w2 && AllWhiteSpace(w2)
    requires s[i + |Keyword| + |w1| + 1 + |w2|..i + |Keyword| + |w1| + 1 + |w2| + |g|] == g
    requires |g| > 0 && '\n' !in g && !IsWhiteSpace(g[0])
    requires i + |Keyword| + |w1| + 1 + |w2| + |g| == |s| || s[i + |Keyword| + |w1| + 1 + |w2| + |g|] == '\n'
    ensures MatchAt(s, i) == Some(g)
  {
    var j := i + |Keyword| + |w1|;
    var k := j + 1 + |w2|;
    SkipWhiteSpaceOver(s, i + |Keyword|, w1);
    assert s[k] == g[0];
    SkipWhiteSpaceOver(s, j + 1, w2);
    LineEndOver(s, k, g);
    MatchAtSteps(s, i, j, k);
  }

  /** The capture is the text after `ascript`, optional whitespace, a colon
      and optional whitespace, up to the end of the line. */
  lemma MatchAtCapture(p: string, w1: string, w2: string, g: string, rest: string)
    requires AllWhiteSpace(w1) && AllWhiteSpace(w2)
    requires |g| > 0 && '\n' !in g && !IsWhiteSpace(g[0])
    requires rest == [] || rest[0] == '\n'
    ensures MatchAt(p + Keyword + w1 + ":" + w2 + g + rest, |p|) == Some(g)
  {
    var s := p + Keyword + w1 + ":" + w2 + g + rest;
    var i := |p|;
    var j := i + |Keyword| + |w1|;
    var k := j + 1 + |w2|;
    assert s[i..i + |Keyword|] == Keyword;
    assert s[i + |Keyword|..j] == w1;
    assert s[j] == ':';
    assert s[j + 1..k] == w2;
    assert s[k..k + |g|] == g;
    MatchAtParts(s, i, w1, w2, g);
  }

  /** `Regex.Match` from start position `i` on: the first position that
      matches decides. */
  function SearchFrom(s: string, i: nat): Option<string>
    requires i <= |s|
    decreases |s| - i
  {
    if MatchAt(s, i).Some? then MatchAt(s, i)
    else if i == |s| then None
    else SearchFrom(s, i + 1)
  }

  /** The search from `i` fails exactly when no position from `i` on
      matches. */
  lemma {:induction false} SearchFromFails(s: string, i: nat)
    requires i <= |s|
    ensures SearchFrom(s, i).None? <==> forall k :: i <= k <= |s| ==> MatchAt(s, k).None?
    decreases |s| - i
  {
    if MatchAt(s, i).None? && i < |s| {
      SearchFromFails(s, i + 1);
    }
  }

  /** A successful search from `i` returns the capture of a matching
      position with no match between `i` and it. */
  lemma {:induction false} SearchFromFinds(s: string, i: nat) returns (k: nat)
    requires i <= |s| && SearchFrom(s, i).Some?
    ensures i <= k <= |s| && MatchAt(s, k) == SearchFrom(s, i)
    ensures forall j :: i <= j < k ==> MatchAt(s, j).None?
    decreases |s| - i
  {
    if MatchAt(s, i).Some? {
      k := i;
    } else {
      k := SearchFromFinds(s, i + 1);
    }
  }

  /** `Regex.Match(s, "ascript\\s*:\\s*(.*)")`: the capture of the leftmost
      match, if there is one. */
  function Search(s: string): Option<string> {
    SearchFrom(s, 0)
  }

  /** The search fails exactly when no position matches, and otherwise
      returns the capture of the leftmost match. */
  lemma SearchLeftmost(s: string)
    ensures Search(s).None? <==> forall k :: 0 <= k <= |s| ==> MatchAt(s, k).None?
    ensures Search(s).Some? ==> exists k :: 0 <= k <= |s| && MatchAt(s, k) == Search(s)
                                            && forall j :: 0 <= j < k ==> MatchAt(s, j).None?
  {
    SearchFromFails(s, 0);
    if Search(s).Some? {
      var k := SearchFromFinds(s, 0);
    }
  }

  /** A match needs the keyword: an attribute without "ascript" never
      matches. */
  lemma SearchNeedsKeyword(s: string)
    requires Search(s).Some?
    ensures Contains(s, Keyword)
  {
    SearchLeftmost(s);
    var k :| 0 <= k <= |s| && MatchAt(s, k) == Search(s);
    ContainsAt(s, Keyword, k);
  }

  /** `AngelscriptFlags`: the trimmed capture of the first attribute that
      matches, or the empty string when none does. */
  function AngelscriptFlags(attributes: seq<string>): (flags: string)
    ensures IsTrimmed(flags)
    decreases |attributes|
  {
    if |attributes| == 0 then ""
    else
      match Search(attributes[0])
      case Some(g) => Trim(g)
      case None => AngelscriptFlags(attributes[1..])
  }

  /** Without a matching attribute the flags are empty. */
  lemma {:induction false} NoDirectiveNoFlags(attributes: seq<string>)
    requires forall k :: 0 <= k < |attributes| ==> Search(attributes[k]).None?
    ensures AngelscriptFlags(attributes) == ""
    decreases |attributes|
  {
    if |attributes| > 0 {
      var tail := attributes[1..];
      assert forall k :: 0 <= k < |tail| ==> tail[k] == attributes[k + 1];
      NoDirectiveNoFlags(tail);
    }
  }

  /** The flags are the trimmed capture of the first attribute that
      matches. */
  lemma {:induction false} FirstDirectiveDecides(attributes: seq<string>, k: nat)
    requires k < |attributes| && Search(attributes[k]).Some?
    requires forall j :: 0 <= j < k ==> Search(attributes[j]).None?
    ensures AngelscriptFlags(attributes) == Trim(Search(attributes[k]).value)
    decreases k
  {
    if k > 0 {
      var tail := attributes[1..];
      assert Search(attributes[0]).None?;
      assert tail[k - 1] == attributes[k];
      assert forall j :: 0 <= j < k - 1 ==> tail[j] == attributes[j + 1];
      FirstDirectiveDecides(tail, k - 1);
    }
  }

  /** The directive text is whatever follows the colon and the whitespace
      after it, with trailing whitespace trimmed. */
  lemma DirectiveExample()
    ensures AngelscriptFlags(["ascript : asOBJ_REF "]) == "asOBJ_REF"
  {
    var s := "ascript : asOBJ_REF ";
    assert s[0..0 + |Keyword|] == Keyword;
    assert SkipWhiteSpace(s, 0 + |Keyword|) == 8;
    assert s[8] == ':';
    assert SkipWhiteSpace(s, 8 + 1) == 10;
    assert LineEnd(s, 10) == |s|;
    var t := "asOBJ_REF";
    assert s[10..|s|] == t + " ";
    assert MatchAt(s, 0) == Some(s[10..LineEnd(s, 10)]);
    assert MatchAt(s, 0) == Some(t + " ");
    assert IsTrimmed(t);
    TrimAppendSpace(t);
    TrimOfTrimmed(t);
  }

  /** An attribute "noascript" contains the keyword but, having no colon after
      it, is no directive. */
  lemma NoScriptIsNoDirective()
    ensures AngelscriptFlags(["noascript"]) == ""
  {
    var s := "noascript";
    forall k | 0 <= k <= |s|
      ensures MatchAt(s, k).None?
    {
      if k == 2 {
        assert SkipWhiteSpace(s, 9) == 9;
      }
    }
  }
}

=== FILE: bindings.dfy ===
/** The member registrations of a class (Program.cs:254-398): which members
    are exposed, the AngelScript declaration each gets, and the comment that
    disables a member the engine cannot take. */
module Bindings {
  import opened Wrappers
  import opened Strings
  import opened Symbols
  import opened Classifier
  import opened Trampolines

  const NoScriptReason: string := "(ignoring since [noascript] specified)"
  const InoutReason: string := "(inout refs are not supported for value types)"
  const TooManyReason: string := "(Generic binding doesn't support more than 4 parameters)"
  const InequalityReason: string := "(operator != is implemented automatically by exposing operator == as opEquals)"
  const RelationalReason: string := "(operators <, <=, > and >= are implemented by exposing operator opCmp)"
  const ConversionReason: string := "(Implicit conversion operators are not supported)"

  /** The generic calling convention's parameter ceiling. */
  const MaxParameters: nat := 16

  function UnknownReason(typeName: string): string {
    "(" + typeName + " is not known to angelscript)"
  }

  // ---------------------------------------------------------------------
  // Parameters

  /** How a parameter crosses into the script: by value, or as a reference
      marked `in` or `out`; a mutable reference without an `[in]`/`[out]`
      note is ambiguous. */
  datatype Direction = ByValue | In | Out | Ambiguous

  function DirectionOf(p: Parameter): Direction {
    if !EndsWith(p.typeName, "&") then ByValue
    else if Contains(p.typeName, "const") || Contains(p.comment, "[in]") then In
    else if Contains(p.comment, "[out]") then Out
    else Ambiguous
  }

  /** What the signature appends after the parameter's type. */
  function DirectionSuffix(d: Direction): string {
    match d
    case In => "in"
    case Out => "out"
    case _ => ""
  }

  function ParamTypes(ps: seq<Parameter>): seq<string> {
    seq(|ps|, i requires 0 <= i < |ps| => ps[i].typeName)
  }

  /** A parameter as it is spelled in the script signature. */
  function SignatureEntry(p: Parameter): string {
    p.typeName + DirectionSuffix(DirectionOf(p))
  }

  function SignatureTypes(ps: seq<Parameter>): seq<string> {
    seq(|ps|, i requires 0 <= i < |ps| => SignatureEntry(ps[i]))
  }

  /** Some parameter is an ambiguous reference. */
  predicate HasAmbiguous(ps: seq<Parameter>) {
    exists k :: 0 <= k < |ps| && DirectionOf(ps[k]) == Ambiguous
  }

  /** The basic types of all parameters are known. */
  predicate BasicTypesKnown(ps: seq<Parameter>, known: seq<string>) {
    forall k :: 0 <= k < |ps| ==> ps[k].basicType in known
  }

  /** Some parameter among the first `n` is an ambiguous reference, in the
      order the loop visits them. */
  predicate AmbiguousBefore(ps: seq<Parameter>, n: nat)
    requires n <= |ps|
    decreases n
  {
    n > 0 && (AmbiguousBefore(ps, n - 1) || DirectionOf(ps[n - 1]) == Ambiguous)
  }

  /** The basic types of the first `n` parameters are all known, in the
      order the loop visits them. */
  predicate KnownBefore(ps: seq<Parameter>, n: nat, known: seq<string>)
    requires n <= |ps|
    decreases n
  {
    n == 0 || (KnownBefore(ps, n - 1, known) && ps[n - 1].basicType in known)
  }

  /** The loop-order predicates say what their quantified readings say. */
  lemma {:induction false} BeforeMeans(ps: seq<Parameter>, n: nat, known: seq<string>)
    requires n <= |ps|
    ensures AmbiguousBefore(ps, n) <==> exists k :: 0 <= k < n && DirectionOf(ps[k]) == Ambiguous
    ensures KnownBefore(ps, n, known) <==> forall k :: 0 <= k < n ==> ps[k].basicType in known
    decreases n
  {
    if n > 0 {
      BeforeMeans(ps, n - 1, known);
      if DirectionOf(ps[n - 1]) == Ambiguous {
        assert 0 <= n - 1 < n && DirectionOf(ps[n - 1]) == Ambiguous;
      }
      if exists k :: 0 <= k < n && DirectionOf(ps[k]) == Ambiguous {
        var k :| 0 <= k < n && DirectionOf(ps[k]) == Ambiguous;
        assert k < n - 1 || k == n - 1;
      }
    }
  }

  lemma AllBefore(ps: seq<Parameter>, known: seq<string>)
    ensures HasAmbiguous(ps) <==> AmbiguousBefore(ps, |ps|)
    ensures BasicTypesKnown(ps, known) <==> KnownBefore(ps, |ps|, known)
  {
    BeforeMeans(ps, |ps|, known);
  }

  /** The two lists the parameter loop builds: the C++ parameter list and
      the script signature. */
  datatype ParamLists = ParamLists(paramList: string, signature: string)

  /** The lists after the first `n` iterations: every parameter but the
      first is preceded by a comma. */
  function ListsAfter(ps: seq<Parameter>, n: nat): ParamLists
    requires n <= |ps|
    decreases n
  {
    if n == 0 then ParamLists("", "")
    else
      var prev := ListsAfter(ps, n - 1);
      var p := ps[n - 1];
      var sep := if n == 1 then "" else ",";
      ParamLists(prev.paramList + sep + p.typeName,
                 prev.signature + sep + SignatureEntry(p))
  }

  lemma ParamTypesSnoc(ps: seq<Parameter>, n: nat)
    requires 0 < n <= |ps|
    ensures ParamTypes(ps[..n]) == ParamTypes(ps[..n - 1]) + [ps[n - 1].typeName]
    ensures SignatureTypes(ps[..n]) == SignatureTypes(ps[..n - 1])
                                       + [SignatureEntry(ps[n - 1])]
  {
  }

  /** The lists the loop builds are the comma-joined parameter types, with
      direction suffixes in the signature. */
  lemma ScanLists(ps: seq<Parameter>, n: nat)
    requires n <= |ps|
    ensures ListsAfter(ps, n).paramList == Join(ParamTypes(ps[..n]), ",")
    ensures ListsAfter(ps, n).signature == Join(SignatureTypes(ps[..n]), ",")
  {
    ScanParamList(ps, n);
    ScanSignature(ps, n);
  }

  lemma {:induction false} ScanParamList(ps: seq<Parameter>, n: nat)
    requires n <= |ps|
    ensures ListsAfter(ps, n).paramList == Join(ParamTypes(ps[..n]), ",")
    decreases n
  {
    if n > 0 {
      var parts, t := ParamTypes(ps[..n - 1]), ps[n - 1].typeName;
      assert |parts| == n - 1;
      assert ListsAfter(ps, n).paramList
             == ListsAfter(ps, n - 1).paramList + (if n == 1 then "" else ",") + t;
      ScanParamList(ps, n - 1);
      ParamTypesSnoc(ps, n);
      JoinSnoc(parts, t, ",");
    }
  }

  lemma {:induction false} ScanSignature(ps: seq<Parameter>, n: nat)
    requires n <= |ps|
    ensures ListsAfter(ps, n).signature == Join(SignatureTypes(ps[..n]), ",")
    decreases n
  {
    if n > 0 {
      var parts, u := SignatureTypes(ps[..n - 1]), SignatureEntry(ps[n - 1]);
      assert |parts| == n - 1;
      assert ListsAfter(ps, n).signature
             == ListsAfter(ps, n - 1).signature + (if n == 1 then "" else ",") + u;
      ScanSignature(ps, n - 1);
      ParamTypesSnoc(ps, n);
      JoinSnoc(parts, u, ",");
    }
  }

  /** What the parameter loop keeps besides the lists: whether the member
      is still exposable and why not. */
  datatype Exclusion = Exclusion(good: bool, reason: string)

  /** One iteration of the parameter loop on the exclusion. An ambiguous
      reference overwrites the reason; an unknown basic type is only
      reported while the member is still exposable. */
  function ExclusionStep(e: Exclusion, d: Direction, basicType: string, known: seq<string>): Exclusion {
    var good1 := e.good && d != Ambiguous;
    var reason1 := if d == Ambiguous then InoutReason else e.reason;
    var unknown := good1 && basicType !in known;
    Exclusion(good1 && !unknown, if unknown then reason1 + UnknownReason(basicType) else reason1)
  }

  /** The exclusion after the first `n` iterations. */
  function ExclusionAfter(ps: seq<Parameter>, known: seq<string>, e0: Exclusion, n: nat): Exclusion
    requires n <= |ps|
    decreases n
  {
    if n == 0 then e0
    else ExclusionStep(ExclusionAfter(ps, known, e0, n - 1), DirectionOf(ps[n - 1]), ps[n - 1].basicType, known)
  }

  lemma ExclusionUnfold(ps: seq<Parameter>, known: seq<string>, e0: Exclusion, n: nat)
    requires 0 < n <= |ps|
    ensures ExclusionAfter(ps, known, e0, n)
            == ExclusionStep(ExclusionAfter(ps, known, e0, n - 1), DirectionOf(ps[n - 1]), ps[n - 1].basicType, known)
  {
  }

  /** The member stays exposable through the parameter loop exactly when it
      was before it and every parameter has a clear direction and a known
      basic type. */
  lemma {:induction false} ScanGood(ps: seq<Parameter>, known: seq<string>, e0: Exclusion, n: nat)
    requires n <= |ps|
    ensures ExclusionAfter(ps, known, e0, n).good
            <==> e0.good && !AmbiguousBefore(ps, n) && KnownBefore(ps, n, known)
    decreases n
  {
    if n > 0 {
      ScanGood(ps, known, e0, n - 1);
      ExclusionUnfold(ps, known, e0, n);
    }
  }

  /** An ambiguous reference leaves the inout reason alone in place of
      every earlier one. */
  lemma {:induction false} ScanAmbiguousReason(ps: seq<Parameter>, known: seq<string>, e0: Exclusion, n: nat)
    requires n <= |ps| && AmbiguousBefore(ps, n)
    ensures ExclusionAfter(ps, known, e0, n).reason == InoutReason
    decreases n
  {
    var prev := ExclusionAfter(ps, known, e0, n - 1);
    ExclusionUnfold(ps, known, e0, n);
    if DirectionOf(ps[n - 1]) != Ambiguous {
      ScanAmbiguousReason(ps, known, e0, n - 1);
      ScanGood(ps, known, e0, n - 1);
      assert !prev.good;
    }
  }

  /** Without an ambiguous reference, the reason is left as it was when the
      member was already excluded or every basic type is known. */
  lemma {:induction false} ScanKeepsReason(ps: seq<Parameter>, known: seq<string>, e0: Exclusion, n: nat)
    requires n <= |ps| && !AmbiguousBefore(ps, n)
    requires !e0.good || KnownBefore(ps, n, known)
    ensures ExclusionAfter(ps, known, e0, n).reason == e0.reason
    decreases n
  {
    if n > 0 {
      ExclusionUnfold(ps, known, e0, n);
      ScanKeepsReason(ps, known, e0, n - 1);
      ScanGood(ps, known, e0, n - 1);
    }
  }

  /** A parameter with an unknown basic type among the first `n` ends
      their being all known. */
  lemma {:induction false} UnknownBefore(ps: seq<Parameter>, n: nat, known: seq<string>, k: nat)
    requires k < n <= |ps| && ps[k].basicType !in known
    ensures !KnownBefore(ps, n, known)
    decreases n
  {
    if k < n - 1 {
      UnknownBefore(ps, n - 1, known, k);
    }
  }

  /** Without an ambiguous reference, only the first unknown basic type of a
      still exposable member is added to the reason. */
  lemma {:induction false} ScanFirstUnknown(ps: seq<Parameter>, known: seq<string>, reason0: string, n: nat, u: nat)
    requires u < n <= |ps| && !AmbiguousBefore(ps, n)
    requires ps[u].basicType !in known && KnownBefore(ps, u, known)
    ensures ExclusionAfter(ps, known, Exclusion(true, reason0), n).reason == reason0 + UnknownReason(ps[u].basicType)
    decreases n
  {
    var e0 := Exclusion(true, reason0);
    var prev := ExclusionAfter(ps, known, e0, n - 1);
    ExclusionUnfold(ps, known, e0, n);
    ScanGood(ps, known, e0, n - 1);
    if u < n - 1 {
      ScanFirstUnknown(ps, known, reason0, n - 1, u);
      UnknownBefore(ps, n - 1, known, u);
    } else {
      ScanKeepsReason(ps, known, e0, n - 1);
    }
  }

  // ---------------------------------------------------------------------
  // Function members

  const RelationalOperators: seq<string> := ["operator<", "operator<=", "operator>", "operator>="]

  /** When a function member can be registered: no `noascript` attribute, a
      known return type, only references with a clear direction, only known
      parameter basic types, at most 16 parameters, and not an inequality,
      relational or conversion operator. */
  predicate Exposable(f: Member, known: seq<string>) {
    && "noascript" !in f.attributes
    && f.typeName in known
    && !HasAmbiguous(f.parameters)
    && BasicTypesKnown(f.parameters, known)
    && |f.parameters| <= MaxParameters
    && f.name != "operator!="
    && f.name !in RelationalOperators
    && !StartsWith(f.name, "operator ")
  }

  /** What the generator decides for one function member. */
  datatype Verdict = Verdict(good: bool, reason: string, paramList: string, signature: string)

  /** The checks of Program.cs:270-345 in their order. The parameter lists
      are the comma-joined parameter types; the signature spells
      `std::string` as `string`. */
  function FunctionVerdict(f: Member, known: seq<string>): (v: Verdict)
    ensures v.good <==> Exposable(f, known)
    ensures v.paramList == Join(ParamTypes(f.parameters), ",")
    ensures v.signature == Replace(Join(SignatureTypes(f.parameters), ","), "std::string", "string")
  {
    var ps := f.parameters;
    var e := ParameterExclusion(f, known);
    var lists := ListsAfter(ps, |ps|);
    assert ps[..|ps|] == ps;
    ScanGood(ps, known, ExclusionBeforeScan(f, known), |ps|);
    AllBefore(ps, known);
    ScanLists(ps, |ps|);
    var tooMany := |ps| > MaxParameters && e.good;
    var reason2 := if tooMany then e.reason + TooManyReason else e.reason;
    var inequality := f.name == "operator!=";
    var reason3 := if inequality then reason2 + InequalityReason else reason2;
    var relational := f.name in RelationalOperators;
    var reason4 := if relational then reason3 + RelationalReason else reason3;
    var conversion := StartsWith(f.name, "operator ");
    var reason5 := if conversion then reason4 + ConversionReason else reason4;
    Verdict(e.good && !tooMany && !inequality && !relational && !conversion,
            reason5,
            lists.paramList,
            Replace(lists.signature, "std::string", "string"))
  }

  /** The exclusion the parameter loop starts from: a member with
      `noascript` is excluded with that reason alone; without it, one with
      an unknown return type is excluded naming that type. */
  function ExclusionBeforeScan(f: Member, known: seq<string>): (e: Exclusion)
    ensures e.good <==> "noascript" !in f.attributes && f.typeName in known
  {
    if "noascript" in f.attributes then Exclusion(false, NoScriptReason)
    else if f.typeName !in known then Exclusion(false, UnknownReason(f.typeName))
    else Exclusion(true, "")
  }

  /** The exclusion after the parameter loop has seen every parameter. */
  function ParameterExclusion(f: Member, known: seq<string>): Exclusion {
    ExclusionAfter(f.parameters, known, ExclusionBeforeScan(f, known), |f.parameters|)
  }

  /** The function members whose reason is decided by the `noascript`,
      return-type and parameter checks alone. */
  predicate NoLaterReason(f: Member) {
    !StartsWith(f.name, "operator ") && f.name != "operator!=" && f.name !in RelationalOperators
  }

  /** Without a late check that fires, the reason given is the one the
      parameter loop ends with. */
  lemma ReasonOfScan(f: Member, known: seq<string>)
    requires NoLaterReason(f)
    requires |f.parameters| <= MaxParameters || !ParameterExclusion(f, known).good
    ensures FunctionVerdict(f, known).reason == ParameterExclusion(f, known).reason
  {
  }

  /** The reasons the early checks give: an ambiguous reference parameter
      replaces whatever came before it, the `noascript` reason included;
      otherwise `noascript` is reported alone, and without it an unknown
      return type is reported alone. */
  lemma EarlyReasons(f: Member, known: seq<string>)
    requires NoLaterReason(f)
    ensures HasAmbiguous(f.parameters) ==> FunctionVerdict(f, known).reason == InoutReason
    ensures !HasAmbiguous(f.parameters) && "noascript" in f.attributes
            ==> FunctionVerdict(f, known).reason == NoScriptReason
    ensures !HasAmbiguous(f.parameters) && "noascript" !in f.attributes && f.typeName !in known
            ==> FunctionVerdict(f, known).reason == UnknownReason(f.typeName)
  {
    var ps := f.parameters;
    var e0 := ExclusionBeforeScan(f, known);
    ScanGood(ps, known, e0, |ps|);
    AllBefore(ps, known);
    if HasAmbiguous(ps) {
      ScanAmbiguousReason(ps, known, e0, |ps|);
      ReasonOfScan(f, known);
    } else if !e0.good {
      ScanKeepsReason(ps, known, e0, |ps|);
      ReasonOfScan(f, known);
    }
  }

  /** More than 16 parameters exclude a member that nothing else excludes,
      and then that is the only reason given. */
  lemma TooManyParameters(f: Member, known: seq<string>)
    requires NoLaterReason(f) && |f.parameters| > MaxParameters
    requires "noascript" !in f.attributes && f.typeName in known
    requires !HasAmbiguous(f.parameters) && BasicTypesKnown(f.parameters, known)
    ensures !FunctionVerdict(f, known).good
    ensures FunctionVerdict(f, known).reason == TooManyReason
  {
    var ps := f.parameters;
    AllBefore(ps, known);
    ScanGood(ps, known, Exclusion(true, ""), |ps|);
    ScanKeepsReason(ps, known, Exclusion(true, ""), |ps|);
  }

  /** How a parameter is spelled in the signature and what an unclear
      direction does to its member: a parameter that is not a reference is
      spelled as its type, and an ambiguous reference excludes the member. */
  lemma ParameterAnnotation(f: Member, known: seq<string>, k: nat)
    requires k < |f.parameters|
    ensures !EndsWith(f.parameters[k].typeName, "&") ==> SignatureTypes(f.parameters)[k] == f.parameters[k].typeName
    ensures DirectionOf(f.parameters[k]) == In ==> SignatureTypes(f.parameters)[k] == f.parameters[k].typeName + "in"
    ensures DirectionOf(f.parameters[k]) == Out ==> SignatureTypes(f.parameters)[k] == f.parameters[k].typeName + "out"
    ensures DirectionOf(f.parameters[k]) == Ambiguous ==> !FunctionVerdict(f, known).good
  {
    assert DirectionOf(f.parameters[k]) == Ambiguous ==> HasAmbiguous(f.parameters);
  }

  /** Without `noascript`, a known return type and no ambiguous reference,
      the first parameter whose basic type is unknown is the one reported. */
  lemma FirstUnknownParameterReported(f: Member, known: seq<string>, u: nat)
    requires NoLaterReason(f)
    requires "noascript" !in f.attributes && f.typeName in known && !HasAmbiguous(f.parameters)
    requires u < |f.parameters| && f.parameters[u].basicType !in known
    requires forall k :: 0 <= k < u ==> f.parameters[k].basicType in known
    ensures FunctionVerdict(f, known).reason == UnknownReason(f.parameters[u].basicType)
  {
    var ps := f.parameters;
    BeforeMeans(ps, u, known);
    AllBefore(ps, known);
    ScanFirstUnknown(ps, known, "", |ps|, u);
    ScanGood(ps, known, Exclusion(true, ""), |ps|);
    ReasonOfScan(f, known);
  }

  /** The inequality and relational operators are excluded whatever their
      types, with the reason naming the operator that replaces them. */
  lemma ComparisonOperatorsExcluded(f: Member, known: seq<string>)
    requires f.name == "operator!=" || f.name in RelationalOperators
    ensures !FunctionVerdict(f, known).good
    ensures f.name == "operator!=" ==> EndsWith(FunctionVerdict(f, known).reason, InequalityReason)
    ensures f.name != "operator!=" ==> EndsWith(FunctionVerdict(f, known).reason, RelationalReason)
  {
    assert |f.name| >= 9 && f.name[8] != ' ';
    assert f.name[..9][8] == f.name[8];
    var v := FunctionVerdict(f, known);
    if f.name == "operator!=" {
      assert v.reason == FunctionVerdict(f, known).reason;
    }
  }

  // ---------------------------------------------------------------------
  // Operator names

  /** The script name of a method: the fixed chain of replacements of
      Program.cs:374-376, applied left to right. */
  function OperatorScriptName(name: string): string {
    var n := Replace(name, "operator+", "opAdd");
    var n := Replace(n, "operator-", "opSub");
    var n := Replace(n, "operator*", "opMul");
    var n := Replace(n, "operator/", "opDiv");
    var n := Replace(n, "operator+=", "opAddAssign");
    var n := Replace(n, "operator-=", "opSubAssign");
    var n := Replace(n, "operator*=", "opMulAssign");
    var n := Replace(n, "operator/=", "opDivAssign");
    Replace(n, "operator==", "opEquals")
  }

  /** A name without any of the replaced operator spellings passes through
      unchanged. */
  lemma OrdinaryNameUnchanged(name: string)
    requires !Contains(name, "operator+") && !Contains(name, "operator-")
    requires !Contains(name, "operator*") && !Contains(name, "operator/")
    requires !Contains(name, "operator==")
    ensures OperatorScriptName(name) == name
  {
    ReplaceAbsent(name, "operator+", "opAdd");
    ReplaceAbsent(name, "operator-", "opSub");
    ReplaceAbsent(name, "operator*", "opMul");
    ReplaceAbsent(name, "operator/", "opDiv");
    if Contains(name, "operator+=") { ContainsPrefix(name, "operator+=", "operator+"); }
    if Contains(name, "operator-=") { ContainsPrefix(name, "operator-=", "operator-"); }
    if Contains(name, "operator*=") { ContainsPrefix(name, "operator*=", "operator*"); }
    if Contains(name, "operator/=") { ContainsPrefix(name, "operator/=", "operator/"); }
    ReplaceAbsent(name, "operator+=", "opAddAssign");
    ReplaceAbsent(name, "operator-=", "opSubAssign");
    ReplaceAbsent(name, "operator*=", "opMulAssign");
    ReplaceAbsent(name, "operator/=", "opDivAssign");
    ReplaceAbsent(name, "operator==", "opEquals");
  }

  /** The script name of an arithmetic operator symbol. */
  function ArithmeticScriptName(op: char): string
    requires op in "+-*/"
  {
    if op == '+' then "opAdd" else if op == '-' then "opSub" else if op == '*' then "opMul" else "opDiv"
  }

  /** One step of the chain on `operator<op><rest>`: the step for `op`
      rewrites it to the script name, every other step leaves it alone. */
  lemma ArithmeticStep(op: char, rest: string, q: char, replacement: string)
    requires op in "+-*/" && q in "+-*/"
    requires rest == "" || rest == "="
    ensures var name := "operator" + [op] + rest;
            Replace(name, "operator" + [q], replacement)
            == if q == op then replacement + rest else name
  {
    var name := "operator" + [op] + rest;
    if q == op {
      assert name == ("operator" + [op]) + rest;
      ReplaceHit("operator" + [op], replacement, rest);
    } else {
      assert q !in name;
      ReplaceMissingChar(name, "operator" + [q], replacement, 8);
    }
  }

  /** The four arithmetic operators map to their script names, and so do
      their compound forms, but only by their first nine characters: the
      single-character replacements run first and leave the `=` behind, so
      `operator+=` becomes `opAdd=` and never `opAddAssign`. */
  lemma ArithmeticOperatorNames(op: char, rest: string)
    requires op in "+-*/"
    requires rest == "" || rest == "="
    ensures OperatorScriptName("operator" + [op] + rest) == ArithmeticScriptName(op) + rest
  {
    var name := "operator" + [op] + rest;
    var t := ArithmeticScriptName(op) + rest;
    assert |t| < 9;
    assert "operator" + ['+'] == "operator+" && "operator" + ['-'] == "operator-";
    assert "operator" + ['*'] == "operator*" && "operator" + ['/'] == "operator/";
    ArithmeticStep(op, rest, '+', "opAdd");
    var s1 := if op == '+' then t else name;
    assert Replace(name, "operator+", "opAdd") == s1;
    if op == '+' { ReplaceShort(t, "operator-", "opSub"); } else { ArithmeticStep(op, rest, '-', "opSub"); }
    var s2 := if op == '+' || op == '-' then t else name;
    assert Replace(s1, "operator-", "opSub") == s2;
    if op == '+' || op == '-' { ReplaceShort(t, "operator*", "opMul"); } else { ArithmeticStep(op, rest, '*', "opMul"); }
    var s3 := if op != '/' then t else name;
    assert Replace(s2, "operator*", "opMul") == s3;
    if op != '/' { ReplaceShort(t, "operator/", "opDiv"); } else { ArithmeticStep(op, rest, '/', "opDiv"); }
    assert Replace(s3, "operator/", "opDiv") == t;
    ReplaceShort(t, "operator+=", "opAddAssign");
    ReplaceShort(t, "operator-=", "opSubAssign");
    ReplaceShort(t, "operator*=", "opMulAssign");
    ReplaceShort(t, "operator/=", "opDivAssign");
    ReplaceShort(t, "operator==", "opEquals");
  }

  /** On a name without any arithmetic symbol only the last replacement,
      that of `operator==`, can change anything. */
  lemma WithoutArithmeticSymbol(name: string)
    requires '+' !in name && '-' !in name && '*' !in name && '/' !in name
    ensures OperatorScriptName(name) == Replace(name, "operator==", "opEquals")
  {
    ReplaceMissingChar(name, "operator+", "opAdd", 8);
    ReplaceMissingChar(name, "operator-", "opSub", 8);
    ReplaceMissingChar(name, "operator*", "opMul", 8);
    ReplaceMissingChar(name, "operator/", "opDiv", 8);
    ReplaceMissingChar(name, "operator+=", "opAddAssign", 8);
    ReplaceMissingChar(name, "operator-=", "opSubAssign", 8);
    ReplaceMissingChar(name, "operator*=", "opMulAssign", 8);
    ReplaceMissingChar(name, "operator/=", "opDivAssign", 8);
  }

  /** Equality maps to `opEquals`. */
  lemma EqualityOperatorName()
    ensures OperatorScriptName("operator==") == "opEquals"
  {
    var name := "operator==";
    WithoutArithmeticSymbol(name);
    assert name == "operator==" + "";
    ReplaceHit("operator==", "opEquals", "");
  }

  // ---------------------------------------------------------------------
  // Registration statements

  /** The text the generator writes, as the source writes it, or with its
      two defects corrected: the factory registration naming the factory
      trampoline, and every member's text ending its line. */
  datatype Edition = AsWritten | Corrected

  /** The constructor name the registration of Program.cs:358-360 refers
      to, as written: `<class>_ctor_<token>` for both semantics. */
  function RegisteredCtorNameAsWritten(className: string, paramList: string): string {
    className + "_ctor_" + Mangle(paramList)
  }

  /** The constructor name the registration should refer to: the factory
      trampoline for a reference type, the placement constructor for a value
      type. */
  function RegisteredCtorName(className: string, c: ClassSymbol, paramList: string): string {
    className + (if IsReferenceType(c) then "_Factory_" else "_ctor_") + Mangle(paramList)
  }

  /** The constructor name an edition's registration refers to. */
  function RegisteredCtorNameIn(e: Edition, className: string, c: ClassSymbol, paramList: string): string {
    match e
    case AsWritten => RegisteredCtorNameAsWritten(className, paramList)
    case Corrected => RegisteredCtorName(className, c, paramList)
  }

  /** The constructor registration up to the bridging function's name: a
      factory behaviour for a reference type, a constructor behaviour for a
      value type. */
  function CtorRegistrationHead(className: string, c: ClassSymbol, v: Verdict): string {
    if IsReferenceType(c) then
      "r = engine->RegisterObjectBehaviour(\"" + className + "\", asBEHAVE_FACTORY, \""
      + className + "@ f(" + v.signature + ")\", AS_FUNCTION("
    else
      "r = engine->RegisterObjectBehaviour(\"" + className + "\", asBEHAVE_CONSTRUCT, \"void f("
      + v.signature + ")\", AS_CONSTRUCTOR("
  }

  /** The constructor registration after the bridging function's name; only
      the value type's ends its line. */
  function CtorRegistrationTail(className: string, c: ClassSymbol, v: Verdict): string {
    if IsReferenceType(c) then
      ", " + className + ", (" + v.paramList + ")), AS_CALL_CONVENTION); assert(r >= 0);"
    else
      ", " + className + ", (" + v.paramList + ")), AS_CTOR_CONVENTION); assert(r >= 0);\n"
  }

  /** The registration of a constructor that refers to the bridging
      function `name`. */
  function CtorRegistration(className: string, c: ClassSymbol, v: Verdict, name: string): string {
    CtorRegistrationHead(className, c, v) + name + CtorRegistrationTail(className, c, v)
  }

  function DtorRegistration(className: string): string {
    DtorRegistrationHead(className) + (className + "_dtor)") + ", AS_CTOR_CONVENTION); assert(r >= 0);"
  }

  /** The destructor registration up to the trampoline's name. */
  function DtorRegistrationHead(className: string): string {
    "r = engine->RegisterObjectBehaviour(\"" + className + "\", asBEHAVE_DESTRUCT, \"void f()\", AS_DESTRUCTOR("
    + className + ", "
  }

  function ConstSuffix(f: Member): string {
    if f.isConst then " const" else ""
  }

  /** The AngelScript declaration of a method: return type and signature with
      `std::string` spelled `string`, the operator name mapped, and ` const`
      at the end exactly for a const method. */
  function ScriptDeclaration(f: Member, v: Verdict): (d: string)
    ensures StartsWith(d, Replace(f.typeName, "std::string", "string") + " ")
    ensures Contains(d, " " + OperatorScriptName(f.name) + "(" + v.signature + ")")
    ensures EndsWith(d, " const") <==> f.isConst
  {
    var ret := Replace(f.typeName, "std::string", "string");
    var call := " " + OperatorScriptName(f.name) + "(" + v.signature + ")";
    var d := ret + call + ConstSuffix(f);
    assert d[..|ret| + 1] == ret + " ";
    ContainsMiddle(ret, call, ConstSuffix(f));
    if f.isConst then
      EndsWithConcat(ret + call, " const");
      d
    else
      assert d[|d| - 1] == ')';
      d
  }

  /** The method registration up to the script declaration. */
  function MethodRegistrationHead(className: string): string {
    "r = engine->RegisterObjectMethod(\"" + className + "\", \""
  }

  /** The C++ method the registration binds: the class, the source name and
      the parameter types, which the script name must not replace. */
  function MethodPointer(className: string, f: Member, v: Verdict): string {
    "AS_METHOD_FUNCTION_PR(" + className + ", " + f.name + ", (" + v.paramList + ")"
  }

  /** The method registration after the script declaration. */
  function MethodRegistrationTail(className: string, f: Member, v: Verdict): string {
    "\", " + MethodPointer(className, f, v)
    + (ConstSuffix(f) + ", " + f.typeName + "), AS_MEMBER_CALL_CONVENTION); assert(r >= 0);\n")
  }

  /** The registration of a method: the script declaration, bound to the C++
      method of the same class under its own name, on a line of its own. */
  function MethodRegistration(className: string, f: Member, v: Verdict): (r: string)
    ensures StartsWith(r, MethodRegistrationHead(className) + ScriptDeclaration(f, v))
    ensures Contains(r, ScriptDeclaration(f, v))
    ensures Contains(r, MethodPointer(className, f, v))
    ensures EndsWith(r, "\n")
  {
    var head := MethodRegistrationHead(className);
    var decl := ScriptDeclaration(f, v);
    var rest := ConstSuffix(f) + ", " + f.typeName + "), AS_MEMBER_CALL_CONVENTION); assert(r >= 0);\n";
    var tail := MethodRegistrationTail(className, f, v);
    ContainsMiddle(head, decl, tail);
    StartsWithConcat(head + decl, tail);
    ContainsAfter(head + decl, "\", ", MethodPointer(className, f, v), rest);
    EndsWithConcat("\", " + MethodPointer(className, f, v), rest);
    EndsWithAppendLeft("\", " + MethodPointer(className, f, v), rest, "\n");
    EndsWithAppendLeft(head + decl, tail, "\n");
    head + decl + tail
  }

  /** The statement written for a public function member, before any
      disabling comment, with the line breaks as written: the factory and
      destructor registrations, the static-method placeholder and the
      nothing written for an abstract class's constructor end without one. */
  function StatementNaming(className: string, c: ClassSymbol, f: Member, v: Verdict, ctorName: string): string {
    if IsCtorOf(f, className) then
      (if !c.isAbstract then CtorRegistration(className, c, v, ctorName) else "")
    else if IsDtorOf(f, className) then DtorRegistration(className)
    else if f.isStatic then "//.classmethod("
    else MethodRegistration(className, f, v)
  }

  /** `s` ending in a line break: one is added when it lacks one. */
  function Terminated(s: string): (r: string)
    ensures EndsWith(r, "\n")
    ensures r == s || r == s + "\n"
    ensures EndsWith(s, "\n") ==> r == s
  {
    if |s| > 0 && s[|s| - 1] == '\n' then s else s + "\n"
  }

  /** The statement for a public function member in an edition: as written,
      or naming the right constructor and ending its line. */
  function FunctionStatement(className: string, c: ClassSymbol, f: Member, v: Verdict, e: Edition): string {
    var s := StatementNaming(className, c, f, v, RegisteredCtorNameIn(e, className, c, v.paramList));
    if e == Corrected then Terminated(s) else s
  }

  /** The comment that disables a member, carrying its reason. */
  function DisablingComment(reason: string): string {
    "// /*" + reason + "*/ "
  }

  /** Some `//` on the last line of `s` is still open: whatever is written
      next, up to the next line break, is part of that comment. */
  predicate LineCommentOpen(s: string) {
    exists i | 0 <= i <= |s| :: OccursAt(s, "//", i) && '\n' !in s[i..]
  }

  /** Text that ends its last line leaves no comment open. */
  lemma TerminatedClosesComments(s: string)
    requires EndsWith(s, "\n")
    ensures !LineCommentOpen(s)
  {
    forall i | 0 <= i <= |s| && OccursAt(s, "//", i)
      ensures '\n' in s[i..]
    {
      assert s[i..][|s| - 1 - i] == s[|s| - 1];
    }
  }

  /** The text for a public function member: the disabling comment when the
      member cannot be registered, a tab and the statement. A member that
      cannot be registered is commented out with its reason, never left
      out; in the corrected edition the text ends its line. */
  function FunctionText(className: string, c: ClassSymbol, f: Member, known: seq<string>, e: Edition): (text: string)
    ensures Exposable(f, known) ==> StartsWith(text, "\t")
    ensures !Exposable(f, known) ==> StartsWith(text, DisablingComment(FunctionVerdict(f, known).reason) + "\t")
    ensures e == Corrected ==> EndsWith(text, "\n")
  {
    var v := FunctionVerdict(f, known);
    var prefix := if v.good then "" else DisablingComment(v.reason);
    var stmt := FunctionStatement(className, c, f, v, e);
    var text := prefix + "\t" + stmt;
    assert text[..|prefix + "\t"|] == prefix + "\t";
    assert e == Corrected ==> EndsWith(text, "\n") by {
      if e == Corrected {
        EndsWithAppendLeft(prefix + "\t", stmt, "\n");
      }
    }
    text
  }

  /** As written, the placeholder for a public static method opens a line
      comment that nothing closes, so the registration written for the next
      member lands inside it and is never compiled. */
  lemma StaticPlaceholderOpensComment(className: string, c: ClassSymbol, f: Member, known: seq<string>)
    requires !IsCtorOf(f, className) && !IsDtorOf(f, className) && f.isStatic
    ensures LineCommentOpen(FunctionText(className, c, f, known, AsWritten))
  {
    var v := FunctionVerdict(f, known);
    var prefix := (if v.good then "" else DisablingComment(v.reason)) + "\t";
    assert FunctionText(className, c, f, known, AsWritten) == prefix + "//.classmethod(";
    PlaceholderOpensComment(prefix);
  }

  lemma PlaceholderOpensComment(prefix: string)
    ensures LineCommentOpen(prefix + "//.classmethod(")
  {
    var tail := "//.classmethod(";
    var s := prefix + tail;
    assert s[|prefix|..] == tail;
    assert s[|prefix|..|prefix| + 2] == tail[..2];
    assert tail[..2] == "//";
    assert '\n' !in tail;
    assert OccursAt(s, "//", |prefix|);
  }

  /** The text of a constructor of a class that is not abstract refers to
      the bridging function the edition names. */
  lemma CtorTextNames(className: string, c: ClassSymbol, f: Member, known: seq<string>, e: Edition)
    requires IsCtorOf(f, className) && !c.isAbstract
    ensures Contains(FunctionText(className, c, f, known, e),
                     RegisteredCtorNameIn(e, className, c, FunctionVerdict(f, known).paramList))
  {
    var v := FunctionVerdict(f, known);
    var lead := FunctionTextLead(f, known);
    var rest := CtorStatementSplit(className, c, f, v, e);
    ContainsAfter(lead, CtorRegistrationHead(className, c, v), RegisteredCtorNameIn(e, className, c, v.paramList), rest);
  }

  /** A function member's text after its disabling comment and tab is its
      statement. */
  lemma FunctionTextLead(f: Member, known: seq<string>) returns (lead: string)
    ensures forall className, c, e :: FunctionText(className, c, f, known, e)
                                      == lead + FunctionStatement(className, c, f, FunctionVerdict(f, known), e)
  {
    var v := FunctionVerdict(f, known);
    lead := (if v.good then "" else DisablingComment(v.reason)) + "\t";
  }

  /** A registered constructor's statement is the registration up to the
      name, the name the edition gives, and the rest. */
  lemma CtorStatementSplit(className: string, c: ClassSymbol, f: Member, v: Verdict, e: Edition) returns (rest: string)
    requires IsCtorOf(f, className) && !c.isAbstract
    ensures FunctionStatement(className, c, f, v, e)
            == CtorRegistrationHead(className, c, v) + RegisteredCtorNameIn(e, className, c, v.paramList) + rest
  {
    var name := RegisteredCtorNameIn(e, className, c, v.paramList);
    var head, tail := CtorRegistrationHead(className, c, v), CtorRegistrationTail(className, c, v);
    assert StatementNaming(className, c, f, v, name) == head + name + tail;
    rest := tail;
    if e == Corrected {
      var t := Terminated(head + name + tail);
      rest := if t == head + name + tail then tail else tail + "\n";
    }
  }

  /** The comment that disables a public variable, carrying its reason. */
  function DisablingVariableComment(message: string): (comment: string)
    ensures StartsWith(comment, "// /* ") && EndsWith(comment, " */ ")
  {
    StartsWithConcat("// /* ", message + " */ ");
    EndsWithConcat("// /* " + message, " */ ");
    "// /* " + message + " */ "
  }

  function UnknownVariableMessage(typeName: string): string {
    typeName + " is not known to angelscript."
  }

  const ArrayVariableMessage: string := "Exposing array types as fields are not supported by angelscript."
  const StaticVariableMessage: string := "Exposing static class variables not yet implemented (are they supported?)"

  /** Every reason that keeps a public variable from being registered, in
      the order the generator tests them. */
  function VariableReasons(f: Member, known: seq<string>): seq<string> {
    (if f.typeName !in known then [UnknownVariableMessage(f.typeName)] else [])
    + (if f.isArray then [ArrayVariableMessage] else [])
    + (if f.isStatic then [StaticVariableMessage] else [])
  }

  /** The comment before a public variable's registration: only the first
      reason that applies is given, and none when the variable can be
      registered. */
  function VariableComment(f: Member, known: seq<string>): (comment: string)
    ensures comment == "" <==> f.typeName in known && !f.isArray && !f.isStatic
    ensures f.typeName !in known ==> comment == DisablingVariableComment(UnknownVariableMessage(f.typeName))
    ensures f.typeName in known && f.isArray ==> comment == DisablingVariableComment(ArrayVariableMessage)
    ensures f.typeName in known && !f.isArray && f.isStatic
            ==> comment == DisablingVariableComment(StaticVariableMessage)
  {
    if f.typeName !in known then DisablingVariableComment(UnknownVariableMessage(f.typeName))
    else if f.isArray then DisablingVariableComment(ArrayVariableMessage)
    else if f.isStatic then DisablingVariableComment(StaticVariableMessage)
    else ""
  }

  /** However many reasons apply, the comment carries exactly the first of
      them, and there is none when no reason applies. */
  lemma VariableCommentFirstReason(f: Member, known: seq<string>)
    ensures VariableReasons(f, known) == [] <==> VariableComment(f, known) == ""
    ensures VariableReasons(f, known) != []
            ==> VariableComment(f, known) == DisablingVariableComment(VariableReasons(f, known)[0])
  {
    var unknown := if f.typeName !in known then [UnknownVariableMessage(f.typeName)] else [];
    var isArray := if f.isArray then [ArrayVariableMessage] else [];
    var isStatic := if f.isStatic then [StaticVariableMessage] else [];
    assert VariableReasons(f, known) == unknown + isArray + isStatic;
    if unknown != [] {
      assert VariableReasons(f, known)[0] == unknown[0];
    } else if isArray != [] {
      assert VariableReasons(f, known) == isArray + isStatic;
    }
  }

  /** The text for a public variable member: the disabling comment, if any,
      then a tab and the property registration of the declared type and name
      on a line of its own. The parent's name is the class symbol's own
      name. */
  function VariableText(c: ClassSymbol, f: Member, known: seq<string>): (text: string)
    ensures StartsWith(text, VariableComment(f, known) + "\t")
    ensures Contains(text, f.typeName + " " + f.name)
    ensures EndsWith(text, "\n")
  {
    var lead := VariableComment(f, known) + "\t";
    var open := "r = engine->RegisterObjectProperty(\"" + c.name + "\", \"";
    var decl := f.typeName + " " + f.name;
    var rest := "\", asOFFSET(" + c.name + ", " + f.name + ")); assert(r >= 0);\n";
    StartsWithConcat(lead, open + decl + rest);
    ContainsAfter(lead, open, decl, rest);
    EndsWithConcat(open + decl, rest);
    EndsWithAppendLeft(open + decl, rest, "\n");
    EndsWithAppendLeft(lead, open + decl + rest, "\n");
    lead + (open + decl + rest)
  }

  /** A `noascript` attribute does not keep a variable from being registered:
      only function members consult it. */
  lemma VariablesIgnoreNoScript(c: ClassSymbol, f: Member, known: seq<string>)
    ensures VariableText(c, f.(attributes := ["noascript"]), known) == VariableText(c, f, known)
  {
  }

  /** The text for one child of the class: public functions and variables
      always produce text, everything else none. A variable's text ends its
      line in both editions, a function's only in the corrected one. */
  function MemberText(className: string, c: ClassSymbol, f: Member, known: seq<string>, e: Edition): (text: string)
    ensures |text| > 0 <==> f.visibility == Public && f.kind != Other
    ensures |text| > 0 && f.kind == Variable ==> EndsWith(text, "\n")
    ensures |text| > 0 && e == Corrected ==> EndsWith(text, "\n")
  {
    if f.visibility != Public then ""
    else
      match f.kind
      case Function => FunctionText(className, c, f, known, e)
      case Variable => VariableText(c, f, known)
      case Other => ""
  }

  /** `GenerateBindingsFile` for a class found in the symbol table: the
      texts of its children in declaration order, then three newlines. */
  function ClassBindings(className: string, c: ClassSymbol, known: seq<string>, e: Edition): string {
    ConcatMap(c.children, (f: Member) => MemberText(className, c, f, known, e)) + "\n\n\n"
  }

  /** In the corrected edition no member's text can comment out the next
      one's: after the texts of any number of leading children, no line
      comment is left open. */
  lemma ClassBindingsCloseEveryLine(className: string, c: ClassSymbol, known: seq<string>, k: nat)
    requires k <= |c.children|
    ensures !LineCommentOpen(ConcatMap(c.children[..k], (f: Member) => MemberText(className, c, f, known, Corrected)))
    ensures k > 0 ==> ConcatMap(c.children[..k], (f: Member) => MemberText(className, c, f, known, Corrected)) == ""
                      || EndsWith(ConcatMap(c.children[..k], (f: Member) => MemberText(className, c, f, known, Corrected)), "\n")
  {
    var g := (f: Member) => MemberText(className, c, f, known, Corrected);
    var xs := c.children[..k];
    forall i | 0 <= i < |xs|
      ensures g(xs[i]) == "" || EndsWith(g(xs[i]), "\n")
    {
      var t := MemberText(className, c, xs[i], known, Corrected);
      assert g(xs[i]) == t;
    }
    ConcatMapEndsLines(xs, g);
    if ConcatMap(xs, g) != "" {
      TerminatedClosesComments(ConcatMap(xs, g));
    }
  }

  // ---------------------------------------------------------------------
  // Registrations refer to the trampolines

  /** Two trampoline names with the class as prefix differ when one carries
      the factory infix and the other the constructor infix. */
  lemma InfixesDiffer(className: string, a: string, b: string)
    ensures className + "_Factory_" + a != className + "_ctor_" + b
  {
    assert (className + "_Factory_" + a)[|className| + 1] == 'F';
    assert (className + "_ctor_" + b)[|className| + 1] == 'c';
  }

  /** As written, a reference type's constructor registration names
      `<class>_ctor_<token>`, while its trampoline is `<class>_Factory_...`:
      the text written refers to a function that is never defined. */
  lemma FactoryNameMismatch(className: string, c: ClassSymbol, f: Member, known: seq<string>)
    requires f.visibility == Public && IsCtorOf(f, className) && !c.isAbstract
    requires IsReferenceType(c)
    ensures TrampolineName(className, c, f).Some?
    ensures TrampolineName(className, c, f).value
            != RegisteredCtorNameAsWritten(className, FunctionVerdict(f, known).paramList)
    ensures Contains(FunctionText(className, c, f, known, AsWritten),
                     RegisteredCtorNameAsWritten(className, FunctionVerdict(f, known).paramList))
  {
    InfixesDiffer(className, Mangle(f.parameterListWithoutNames),
                  Mangle(FunctionVerdict(f, known).paramList));
    CtorTextNames(className, c, f, known, AsWritten);
  }

  /** For a value type the name as written is already right: the
      registration written for a public constructor refers to the placement
      constructor trampoline written for it, provided the symbol's own
      parameter list mangles to the same token as the comma-joined parameter
      types. */
  lemma ValueCtorNameAgrees(className: string, c: ClassSymbol, f: Member, known: seq<string>)
    requires f.visibility == Public && IsCtorOf(f, className) && !c.isAbstract
    requires !IsReferenceType(c)
    requires Mangle(f.parameterListWithoutNames) == Mangle(Join(ParamTypes(f.parameters), ","))
    ensures TrampolineName(className, c, f)
            == Some(RegisteredCtorNameAsWritten(className, FunctionVerdict(f, known).paramList))
    ensures Contains(FunctionText(className, c, f, known, AsWritten),
                     RegisteredCtorNameAsWritten(className, FunctionVerdict(f, known).paramList))
  {
    CtorTextNames(className, c, f, known, AsWritten);
  }

  /** A constructor of an abstract class is not registered: as written its
      statement is empty, corrected it is an empty line. */
  lemma AbstractCtorNotRegistered(className: string, c: ClassSymbol, f: Member, v: Verdict)
    requires IsCtorOf(f, className) && c.isAbstract
    ensures FunctionStatement(className, c, f, v, AsWritten) == ""
    ensures FunctionStatement(className, c, f, v, Corrected) == "\n"
  {
  }

  /** With the factory name corrected, every constructor registration of a
      class refers to the trampoline written for that member, provided the
      symbol's own parameter list mangles to the same token as the
      comma-joined parameter types. */
  lemma RegistrationsReferToTrampolines(className: string, c: ClassSymbol, f: Member, known: seq<string>)
    requires f.visibility == Public && !c.isAbstract
    requires IsCtorOf(f, className)
    requires Mangle(f.parameterListWithoutNames) == Mangle(Join(ParamTypes(f.parameters), ","))
    ensures TrampolineName(className, c, f)
            == Some(RegisteredCtorName(className, c, FunctionVerdict(f, known).paramList))
    ensures Contains(FunctionText(className, c, f, known, Corrected),
                     RegisteredCtorName(className, c, FunctionVerdict(f, known).paramList))
  {
    CtorTextNames(className, c, f, known, Corrected);
  }

  /** A public destructor's registration names `<class>_dtor`, the
      trampoline written for it. */
  lemma DtorRegistrationRefersToTrampoline(className: string, c: ClassSymbol, f: Member)
    requires f.visibility == Public && IsDtorOf(f, className)
    ensures TrampolineName(className, c, f) == Some(className + "_dtor")
    ensures Contains(DtorRegistration(className), className + "_dtor)")
  {
    assert |f.name| == |className| + 1;
    DtorRegistrationMentions(className);
  }

  lemma DtorRegistrationMentions(className: string)
    ensures Contains(DtorRegistration(className), className + "_dtor)")
  {
    ContainsMiddle(DtorRegistrationHead(className), className + "_dtor)", ", AS_CTOR_CONVENTION); assert(r >= 0);");
  }
}

=== FILE: classifier.dfy ===
/** Value or reference semantics for a class (Program.cs:112-151). */
module Classifier {
  import opened Wrappers
  import opened Strings
  import opened Symbols
  import opened Attributes

  const RefFlag: string := "asOBJ_REF"
  const ValueFlag: string := "asOBJ_VALUE"

  /** `IsReferenceType`: true when the class must be registered as a
      reference type. */
  function IsReferenceType(c: ClassSymbol): bool {
    var flags := AngelscriptFlags(c.attributes);
    if Contains(flags, RefFlag) then true
    else if Contains(flags, ValueFlag) then false
    else if c.isAbstract then true
    else if |c.ctors| > 0 && Public !in c.ctors then true
    else if NonPublic(c.copyCtor) then true
    else if NonPublic(c.assignmentChild) then true
    else if NonPublic(c.dtor) then true
    else false
  }

  /** The explicit directive decides first (`asOBJ_REF` before
      `asOBJ_VALUE`); without one, the class is a reference type exactly when
      it is abstract, has constructors none of which is public, or has a copy
      constructor, `operator=` child or destructor that is not public. */
  lemma ReferenceTypeRules(c: ClassSymbol)
    ensures Contains(AngelscriptFlags(c.attributes), RefFlag) ==> IsReferenceType(c)
    ensures (!Contains(AngelscriptFlags(c.attributes), RefFlag)
             && Contains(AngelscriptFlags(c.attributes), ValueFlag)) ==> !IsReferenceType(c)
    ensures (!Contains(AngelscriptFlags(c.attributes), RefFlag)
             && !Contains(AngelscriptFlags(c.attributes), ValueFlag))
            ==> (IsReferenceType(c)
                 <==> (|| c.isAbstract
                       || (|c.ctors| > 0 && forall i :: 0 <= i < |c.ctors| ==> c.ctors[i] != Public)
                       || NonPublic(c.copyCtor)
                       || NonPublic(c.assignmentChild)
                       || NonPublic(c.dtor)))
  {
    assert (Public !in c.ctors) <==> forall i :: 0 <= i < |c.ctors| ==> c.ctors[i] != Public;
  }

  /** One classification rule: when `fires`, the decision is `isRef`. */
  datatype Rule = Rule(fires: bool, isRef: bool)

  /** The first rule that fires decides; `default` when none does. */
  function FirstMatch(rules: seq<Rule>, default: bool): (isRef: bool)
    ensures (forall i :: 0 <= i < |rules| ==> !rules[i].fires) ==> isRef == default
    ensures forall i :: (0 <= i < |rules| && rules[i].fires
                         && (forall j :: 0 <= j < i ==> !rules[j].fires)) ==> isRef == rules[i].isRef
    decreases |rules|
  {
    if |rules| == 0 then default
    else if rules[0].fires then rules[0].isRef
    else
      assert forall i :: 1 <= i < |rules| ==> rules[i] == rules[1..][i - 1];
      FirstMatch(rules[1..], default)
  }

  /** The classifier written as its ordered rule table. */
  function Rules(c: ClassSymbol): seq<Rule> {
    var flags := AngelscriptFlags(c.attributes);
    [ Rule(Contains(flags, RefFlag), true),
      Rule(Contains(flags, ValueFlag), false),
      Rule(c.isAbstract, true),
      Rule(|c.ctors| > 0 && forall i :: 0 <= i < |c.ctors| ==> c.ctors[i] != Public, true),
      Rule(NonPublic(c.copyCtor), true),
      Rule(NonPublic(c.assignmentChild), true),
      Rule(NonPublic(c.dtor), true) ]
  }

  /** Unfolding `FirstMatch` by one rule. */
  lemma FirstMatchCons(r: Rule, rest: seq<Rule>, default: bool)
    ensures FirstMatch([r] + rest, default) == if r.fires then r.isRef else FirstMatch(rest, default)
  {
    assert ([r] + rest)[1..] == rest;
  }

  /** `FirstMatch` over a table of seven rules, unfolded. */
  lemma {:induction false} FirstMatchOfSeven(rs: seq<Rule>, default: bool)
    requires |rs| == 7
    ensures FirstMatch(rs, default)
            == if rs[0].fires then rs[0].isRef
               else if rs[1].fires then rs[1].isRef
               else if rs[2].fires then rs[2].isRef
               else if rs[3].fires then rs[3].isRef
               else if rs[4].fires then rs[4].isRef
               else if rs[5].fires then rs[5].isRef
               else if rs[6].fires then rs[6].isRef
               else default
  {
    forall j | 0 <= j < 7
      ensures rs[j..] == [rs[j]] + rs[j + 1..]
    {
    }
    FirstMatchCons(rs[6], rs[7..], default);
    FirstMatchCons(rs[5], rs[6..], default);
    FirstMatchCons(rs[4], rs[5..], default);
    FirstMatchCons(rs[3], rs[4..], default);
    FirstMatchCons(rs[2], rs[3..], default);
    FirstMatchCons(rs[1], rs[2..], default);
    FirstMatchCons(rs[0], rs[1..], default);
    assert rs[0..] == rs;
  }

  /** The classifier is the first-match reading of its rule table, with value
      semantics as the default. */
  lemma ClassifierIsFirstMatch(c: ClassSymbol)
    ensures IsReferenceType(c) == FirstMatch(Rules(c), false)
  {
    FirstMatchOfSeven(Rules(c), false);
  }

  /** The class's flags name neither semantics, so the member rules decide. */
  predicate NoSemanticsDirective(c: ClassSymbol) {
    !Contains(AngelscriptFlags(c.attributes), RefFlag) && !Contains(AngelscriptFlags(c.attributes), ValueFlag)
  }

  /** With no directive naming the semantics, an abstract class is a
      reference type. */
  lemma AbstractIsReference(c: ClassSymbol)
    requires NoSemanticsDirective(c)
    requires c.isAbstract
    ensures IsReferenceType(c)
  {
  }

  /** A class whose helpers all report public members, with no pure virtual
      function and no directive naming the semantics, is a value type. */
  lemma AllPublicIsValue(c: ClassSymbol)
    requires NoSemanticsDirective(c)
    requires !c.isAbstract
    requires Public in c.ctors
    requires !NonPublic(c.copyCtor) && !NonPublic(c.assignmentChild) && !NonPublic(c.dtor)
    ensures !IsReferenceType(c)
  {
  }
}

=== FILE: generator.dfy ===
/** The generator's entry point (Program.cs:16-97): the usage check, the
    types that start out known, and the three passes over the requested
    classes that write the header file. */
module Generator {
  import opened Strings
  import opened Symbols
  import opened ObjectType
  import opened Trampolines
  import opened Bindings

  const Usage: string :=
    "Usage: AngelscriptGenerator <directory_to_doxygen_xml_docs> [class1 [class2 [class3 ... [classN]]]]"
  const Done: string := "Writing angelscript_symbols_cpp.h done."

  /** The fixed text the header file starts with: the calling-convention
      macros for the native and the generic convention. */
  const Preamble: string :=
    "#pragma once\n"
    + "#include <angelscript.h>\n\n"
    + "// If you want to use Angelscript's generic calling convention, #define USE_ANGELSCRIPT_GENERIC_CALL_CONVENTION before including this file.\n"
    + "// If you use the generic calling convention, you MUST #include <autowrapper/aswrappedcall.h> to bring the wrapper code. If your functions contain a large amount of input parameters,\n"
    + "// copy the file cpp/aswrappedcall_17.h to your project and include that file instead.\n"
    + "#if defined(USE_ANGELSCRIPT_GENERIC_CALL_CONVENTION)\n\n"
    + "#define AS_CALL_CONVENTION asCALL_GENERIC\n"
    + "#define AS_CTOR_CONVENTION asCALL_GENERIC\n"
    + "#define AS_MEMBER_CALL_CONVENTION asCALL_GENERIC\n"
    + "#define AS_FUNCTION WRAP_FN\n"
    + "#define AS_CONSTRUCTOR(ctorFuncName, className, parameters) WRAP_CON(className, parameters)\n"
    + "#define AS_DESTRUCTOR(className, dtorFunc) WRAP_DES(className)\n"
    + "#define AS_METHOD_FUNCTION_PR WRAP_MFN_PR\n\n"
    + "#else\n\n"
    + "#define AS_CALL_CONVENTION asCALL_CDECL\n"
    + "#define AS_CTOR_CONVENTION asCALL_CDECL_OBJLAST\n"
    + "#define AS_MEMBER_CALL_CONVENTION asCALL_THISCALL\n"
    + "#define AS_FUNCTION asFUNCTION\n"
    + "#define AS_CONSTRUCTOR(ctorFuncName, className, parameters) asFUNCTION(ctorFuncName)\n"
    + "#define AS_DESTRUCTOR(className, dtorFunc) asFUNCTION(dtorFunc)\n"
    + "#define AS_METHOD_FUNCTION_PR asMETHODPR\n\n"
    + "#endif\n\n"

  /** The opening of the registration function. */
  const Header: string := "void RegisterAngelscriptObjects(asIScriptEngine *engine)\n{\n\tint r;\n\n"

  /** The types every run knows: the empty type of a constructor's return
      value, the primitive types (`unsigned int` twice, as listed) and
      `std::string`. */
  const Primitives: seq<string> :=
    ["", "void", "bool", "char", "signed char", "unsigned char", "short", "signed short",
     "unsigned short", "int", "signed int", "unsigned int", "long", "signed long",
     "unsigned long", "float", "double", "unsigned int", "std::string"]

  /** The known types of a run: the fixed ones, then every requested class
      name in order, whether or not the symbol table has it. */
  function KnownTypes(classNames: seq<string>): (known: seq<string>)
    ensures forall t :: t in known <==> t in Primitives || t in classNames
    ensures |known| == |Primitives| + |classNames|
    ensures known[|Primitives|..] == classNames
  {
    Primitives + classNames
  }

  /** The symbol table loaded from the documentation directory. */
  type SymbolTable = map<string, ClassSymbol>

  function MissingDiagnostic(className: string): string {
    "Error: Cannot generate bindings for class '" + className + "', XML docs for that class don't exist!"
  }

  /** The requested names the table lacks, in request order. */
  function MissingNames(symbols: SymbolTable, names: seq<string>): seq<string>
    decreases |names|
  {
    if |names| == 0 then []
    else
      var rest := MissingNames(symbols, names[1..]);
      if names[0] in symbols then rest else [names[0]] + rest
  }

  /** The missing names are exactly the requested names the table lacks,
      and there are no more of them than names. */
  lemma {:induction false} MissingNamesMeans(symbols: SymbolTable, names: seq<string>)
    ensures forall n :: n in MissingNames(symbols, names) <==> n in names && n !in symbols
    ensures |MissingNames(symbols, names)| <= |names|
    decreases |names|
  {
    if |names| > 0 {
      MissingNamesMeans(symbols, names[1..]);
      assert forall n :: n in names <==> n == names[0] || n in names[1..];
    }
  }

  /** The missing names keep request order and multiplicity: a single name
      is missing exactly when the table lacks it, and the names missing from
      a concatenation are those missing from each part, in turn. */
  lemma {:induction false} MissingNamesDistributes(symbols: SymbolTable, a: seq<string>, b: seq<string>)
    ensures MissingNames(symbols, a + b) == MissingNames(symbols, a) + MissingNames(symbols, b)
    ensures |a| == 1 ==> MissingNames(symbols, a) == (if a[0] in symbols then [] else a)
    decreases |a|
  {
    if |a| > 0 {
      assert (a + b)[1..] == a[1..] + b;
      MissingNamesDistributes(symbols, a[1..], b);
    } else {
      assert a + b == b;
    }
  }

  /** The three passes over the requested classes. */
  datatype Pass = CtorPass | TypePass | BindingsPass

  /** What one pass writes for one requested class: nothing when the table
      lacks the class. */
  function PassText(pass: Pass, symbols: SymbolTable, known: seq<string>, className: string, e: Edition): string {
    if className !in symbols then ""
    else
      var c := symbols[className];
      match pass
      case CtorPass => CtorFunctions(className, c)
      case TypePass => RegisterObjectType(className, c)
      case BindingsPass => ClassBindings(className, c, known, e)
  }

  /** What one pass writes for all requested classes, in request order. */
  function PassOutput(pass: Pass, symbols: SymbolTable, known: seq<string>, names: seq<string>, e: Edition): string {
    ConcatMap(names, (n: string) => PassText(pass, symbols, known, n, e))
  }

  /** The console lines of one pass: one diagnostic per missing class. */
  function PassDiagnostics(symbols: SymbolTable, names: seq<string>): (lines: seq<string>)
    ensures |lines| == |MissingNames(symbols, names)|
  {
    var missing := MissingNames(symbols, names);
    seq(|missing|, i requires 0 <= i < |missing| => MissingDiagnostic(missing[i]))
  }

  /** The effects of a run: the header file's text and the console lines. */
  datatype Output = Output(file: string, console: seq<string>)

  /** What the three passes write, with the opening of the registration
      function between the first two and two newlines between the last two. */
  function Sections(symbols: SymbolTable, names: seq<string>, e: Edition): string {
    var known := KnownTypes(names);
    PassOutput(CtorPass, symbols, known, names, e) + Header
    + PassOutput(TypePass, symbols, known, names, e) + "\n\n"
    + PassOutput(BindingsPass, symbols, known, names, e)
  }

  /** The console lines of a run that got class names: the three passes'
      diagnostics, then the closing line. */
  function Console(symbols: SymbolTable, names: seq<string>): (lines: seq<string>)
    ensures |lines| == 3 * |MissingNames(symbols, names)| + 1
    ensures lines[|lines| - 1] == Done
  {
    var d := PassDiagnostics(symbols, names);
    d + d + d + [Done]
  }

  /** Each pass reports every missing class once, in request order. */
  lemma ConsoleReportsMissing(symbols: SymbolTable, names: seq<string>, i: nat)
    requires i < |MissingNames(symbols, names)|
    ensures var missing, lines := MissingNames(symbols, names), Console(symbols, names);
            && lines[i] == MissingDiagnostic(missing[i])
            && lines[|missing| + i] == MissingDiagnostic(missing[i])
            && lines[2 * |missing| + i] == MissingDiagnostic(missing[i])
  {
    var d := PassDiagnostics(symbols, names);
    var lines := d + d + d + [Done];
    assert Console(symbols, names) == lines;
    assert d[i] == MissingDiagnostic(MissingNames(symbols, names)[i]);
    assert lines[i] == d[i] && lines[|d| + i] == d[i] && lines[2 * |d| + i] == d[i];
  }

  /** `Main`: with fewer than two arguments only the usage line is printed
      and the file stays empty; otherwise the arguments after the first name
      the classes, and the file holds the preamble, the three passes and the
      closing brace. `Run(args, symbols, AsWritten)` is the program as
      written; `Corrected` writes the member registrations corrected. */
  function Run(args: seq<string>, symbols: SymbolTable, e: Edition): (out: Output)
    ensures |args| < 2 ==> out == Output("", [Usage])
    ensures |args| >= 2 ==> StartsWith(out.file, Preamble) && EndsWith(out.file, "}\n")
    ensures |args| >= 2 ==> out.console == Console(symbols, args[1..])
  {
    if |args| < 2 then Output("", [Usage])
    else
      var sections := Sections(symbols, args[1..], e);
      Framed(Preamble, sections, "}\n");
      Output(Preamble + sections + "}\n", Console(symbols, args[1..]))
  }

  /** A requested class the table lacks contributes nothing to any pass:
      the output is that of the other classes. */
  lemma MissingClassSilent(pass: Pass, symbols: SymbolTable, known: seq<string>,
                           before: seq<string>, className: string, after: seq<string>, e: Edition)
    requires className !in symbols
    ensures PassOutput(pass, symbols, known, before + [className] + after, e)
            == PassOutput(pass, symbols, known, before, e) + PassOutput(pass, symbols, known, after, e)
  {
    var f := (n: string) => PassText(pass, symbols, known, n, e);
    ConcatMapAppend(before + [className], after, f);
    ConcatMapAppend(before, [className], f);
    assert ConcatMap([className], f) == f(className) + ConcatMap([className][1..], f);
  }

  /** Every pass writes the classes in the order they were requested. */
  lemma PassFollowsRequestOrder(pass: Pass, symbols: SymbolTable, known: seq<string>,
                                first: seq<string>, second: seq<string>, e: Edition)
    ensures PassOutput(pass, symbols, known, first + second, e)
            == PassOutput(pass, symbols, known, first, e) + PassOutput(pass, symbols, known, second, e)
  {
    ConcatMapAppend(first, second, (n: string) => PassText(pass, symbols, known, n, e));
  }

  /** A pass over a single requested class writes what the pass writes for
      that class. */
  lemma SinglePass(pass: Pass, symbols: SymbolTable, known: seq<string>, className: string, e: Edition)
    ensures PassOutput(pass, symbols, known, [className], e) == PassText(pass, symbols, known, className, e)
  {
    var f := (n: string) => PassText(pass, symbols, known, n, e);
    assert ConcatMap([className], f) == f(className) + ConcatMap([className][1..], f);
  }

  /** When the table has every requested class, the closing line is the
      only console output of the run. */
  lemma NothingMissingConsole(symbols: SymbolTable, names: seq<string>)
    requires forall i :: 0 <= i < |names| ==> names[i] in symbols
    ensures Console(symbols, names) == [Done]
  {
    NoneMissing(symbols, names);
  }

  lemma {:induction false} NoneMissing(symbols: SymbolTable, names: seq<string>)
    requires forall i :: 0 <= i < |names| ==> names[i] in symbols
    ensures MissingNames(symbols, names) == []
    decreases |names|
  {
    if |names| > 0 {
      assert forall i :: 0 <= i < |names[1..]| ==> names[1..][i] == names[i + 1];
      NoneMissing(symbols, names[1..]);
    }
  }

  /** A run for one class that the table has writes exactly that class's
      trampolines, type registration and member registrations, in that
      order, around the fixed text; the class's own name is a known type. */
  lemma SingleClassRun(dir: string, className: string, symbols: SymbolTable, e: Edition)
    requires className in symbols
    ensures className in KnownTypes([className])
    ensures Sections(symbols, [dir, className][1..], e)
            == CtorFunctions(className, symbols[className]) + Header
               + RegisterObjectType(className, symbols[className]) + "\n\n"
               + ClassBindings(className, symbols[className], KnownTypes([className]), e)
  {
    var names := [dir, className][1..];
    assert names == [className];
    var known := KnownTypes(names);
    SinglePass(CtorPass, symbols, known, className, e);
    SinglePass(TypePass, symbols, known, className, e);
    SinglePass(BindingsPass, symbols, known, className, e);
  }

  /** A run in which the table has none of the requested classes still
      writes a well-formed file: the preamble and an empty registration
      function. */
  lemma NothingFoundRun(args: seq<string>, symbols: SymbolTable, e: Edition)
    requires |args| >= 2
    requires forall i :: 1 <= i < |args| ==> args[i] !in symbols
    ensures Sections(symbols, args[1..], e) == Header + "\n\n"
  {
    var names := args[1..];
    var known := KnownTypes(names);
    assert forall i :: 0 <= i < |names| ==> names[i] == args[i + 1];
    SilentPass(CtorPass, symbols, known, names, e);
    SilentPass(TypePass, symbols, known, names, e);
    SilentPass(BindingsPass, symbols, known, names, e);
    assert "" + Header + "" + "\n\n" + "" == Header + "\n\n";
  }

  /** A pass over classes the table lacks writes nothing. */
  lemma SilentPass(pass: Pass, symbols: SymbolTable, known: seq<string>, names: seq<string>, e: Edition)
    requires forall i :: 0 <= i < |names| ==> names[i] !in symbols
    ensures PassOutput(pass, symbols, known, names, e) == ""
  {
    ConcatMapSilent(names, (n: string) => PassText(pass, symbols, known, n, e));
  }
}

=== FILE: objecttype.dfy ===
/** The object-type registration of a class (Program.cs:154-191): which
    `asOBJ_*` flags the class is registered with. */
module ObjectType {
  import opened Wrappers
  import opened Strings
  import opened Symbols
  import opened Attributes
  import opened Classifier

  const DefaultRefFlags: string := "asOBJ_REF | asOBJ_NOCOUNT"
  const DefaultValueFlags: string := "asOBJ_VALUE | asOBJ_POD"

  /** The application-class bits, which tell the engine which special
      members the native class has. */
  datatype AppClassBit =
    | ClassConstructor | ClassDestructor | ClassCopyConstructor | ClassAssignment

  function BitName(b: AppClassBit): (name: string)
    ensures IsTrimmed(name) && '|' !in name
  {
    match b
    case ClassConstructor => "asOBJ_APP_CLASS_CONSTRUCTOR"
    case ClassDestructor => "asOBJ_APP_CLASS_DESTRUCTOR"
    case ClassCopyConstructor => "asOBJ_APP_CLASS_COPY_CONSTRUCTOR"
    case ClassAssignment => "asOBJ_APP_CLASS_ASSIGNMENT"
  }

  /** The flags before any application-class bit: the class's own directive
      when it has a non-empty one, otherwise the default of its semantics. */
  function BaseFlags(c: ClassSymbol): (flags: string)
    ensures AngelscriptFlags(c.attributes) != "" ==> flags == AngelscriptFlags(c.attributes)
    ensures AngelscriptFlags(c.attributes) == "" && IsReferenceType(c) ==> flags == DefaultRefFlags
    ensures AngelscriptFlags(c.attributes) == "" && !IsReferenceType(c) ==> flags == DefaultValueFlags
  {
    var explicit := AngelscriptFlags(c.attributes);
    if |explicit| == 0 then
      (if IsReferenceType(c) then DefaultRefFlags else DefaultValueFlags)
    else explicit
  }

  /** The application-class bits a class receives: none for a reference
      type; for a value type, each bit exactly when its member exists, in the
      order constructor, destructor, copy constructor, assignment. */
  function AppClassBits(c: ClassSymbol): (bits: seq<AppClassBit>)
    ensures IsReferenceType(c) ==> bits == []
    ensures ClassConstructor in bits <==> !IsReferenceType(c) && c.ctor.Some?
    ensures ClassDestructor in bits <==> !IsReferenceType(c) && c.dtor.Some?
    ensures ClassCopyConstructor in bits <==> !IsReferenceType(c) && c.copyCtor.Some?
    ensures ClassAssignment in bits <==> !IsReferenceType(c) && c.assignmentOperator.Some?
  {
    var isValue := !IsReferenceType(c);
    (if isValue && c.ctor.Some? then [ClassConstructor] else [])
    + (if isValue && c.dtor.Some? then [ClassDestructor] else [])
    + (if isValue && c.copyCtor.Some? then [ClassCopyConstructor] else [])
    + (if isValue && c.assignmentOperator.Some? then [ClassAssignment] else [])
  }

  /** `flags += " | " + bit` for every bit in turn. */
  function AppendBits(flags: string, bits: seq<AppClassBit>): (r: string)
    decreases |bits|
  {
    if |bits| == 0 then flags
    else AppendBits(flags, bits[..|bits| - 1]) + " | " + BitName(bits[|bits| - 1])
  }

  /** The flags string written into `RegisterObjectType`: the base flags
      followed by the application-class bits. */
  function ObjectTypeFlags(c: ClassSymbol): (flags: string)
    ensures IsReferenceType(c) ==> flags == BaseFlags(c)
  {
    AppendBits(BaseFlags(c), AppClassBits(c))
  }

  /** The registration statement for a class found in the symbol table: it
      registers the class under its own name and size, with the flags
      `ObjectTypeFlags` chooses, on a line of its own. */
  function RegisterObjectType(className: string, c: ClassSymbol): (r: string)
    ensures StartsWith(r, "\tr = engine->RegisterObjectType(\"" + className + "\", sizeof(" + className + "), ")
    ensures Contains(r, ObjectTypeFlags(c))
    ensures EndsWith(r, "\n")
  {
    var head := "\tr = engine->RegisterObjectType(\"" + className + "\", sizeof(" + className + "), ";
    var tail := "); assert(r >= 0);\n";
    ContainsMiddle(head, ObjectTypeFlags(c), tail);
    Framed(head, ObjectTypeFlags(c), tail);
    EndsWithAppendLeft(head + ObjectTypeFlags(c), tail, "\n");
    head + ObjectTypeFlags(c) + tail
  }

  /** The flag names a `|`-separated flags expression lists, as the
      AngelScript engine reads them: the pieces between the bars, trimmed. */
  function FlagTokens(flags: string): (tokens: seq<string>)
    ensures |tokens| == |Split(flags, '|')|
  {
    TrimAll(Split(flags, '|'))
  }

  function TrimAll(parts: seq<string>): seq<string> {
    seq(|parts|, i requires 0 <= i < |parts| => Trim(parts[i]))
  }

  lemma TrimAllSnoc(parts: seq<string>, last: string)
    ensures TrimAll(parts + [last]) == TrimAll(parts) + [Trim(last)]
  {
    var l, r := TrimAll(parts + [last]), TrimAll(parts) + [Trim(last)];
    forall i | 0 <= i < |l|
      ensures l[i] == r[i]
    {
      if i < |parts| {
        assert (parts + [last])[i] == parts[i];
      } else {
        assert (parts + [last])[i] == last;
      }
    }
  }

  function BitNames(bits: seq<AppClassBit>): seq<string> {
    seq(|bits|, i requires 0 <= i < |bits| => BitName(bits[i]))
  }

  lemma BitNamesSnoc(bits: seq<AppClassBit>)
    requires |bits| > 0
    ensures BitNames(bits) == BitNames(bits[..|bits| - 1]) + [BitName(bits[|bits| - 1])]
  {
  }

  /** A trailing space does not change the flag names. */
  lemma FlagTokensAppendSpace(s: string)
    ensures FlagTokens(s + " ") == FlagTokens(s)
  {
    if '|' !in s {
      assert '|' !in s + " ";
      TrimAppendSpace(s);
    } else {
      var i := LastIndex(s, '|');
      var a, b := s[..i], s[i + 1..];
      assert s == a + ['|'] + b;
      assert s + " " == a + ['|'] + (b + " ");
      SplitAppend(a, '|', b);
      SplitAppend(a, '|', b + " ");
      TrimAllSnoc(Split(a, '|'), b);
      TrimAllSnoc(Split(a, '|'), b + " ");
      TrimAppendSpace(b);
    }
  }

  /** Appending ` | bit` adds exactly the flag name `bit`. */
  lemma FlagTokensAppendBit(s: string, bit: string)
    requires IsTrimmed(bit) && '|' !in bit
    ensures FlagTokens(s + " | " + bit) == FlagTokens(s) + [bit]
  {
    assert s + " | " + bit == (s + " ") + ['|'] + (" " + bit);
    SplitAppend(s + " ", '|', " " + bit);
    TrimAllSnoc(Split(s + " ", '|'), " " + bit);
    FlagTokensAppendSpace(s);
    TrimPrependSpace(bit);
  }

  /** Appending bits one by one adds exactly their names as flags. */
  lemma {:induction false} FlagTokensAppendBits(flags: string, bits: seq<AppClassBit>)
    ensures FlagTokens(AppendBits(flags, bits)) == FlagTokens(flags) + BitNames(bits)
    decreases |bits|
  {
    if |bits| > 0 {
      var init, name := bits[..|bits| - 1], BitName(bits[|bits| - 1]);
      var prefix := AppendBits(flags, init);
      assert AppendBits(flags, bits) == prefix + " | " + name;
      FlagTokensAppendBits(flags, init);
      FlagTokensAppendBit(prefix, name);
      BitNamesSnoc(bits);
      calc {
        FlagTokens(AppendBits(flags, bits));
        FlagTokens(prefix) + [name];
        (FlagTokens(flags) + BitNames(init)) + [name];
        FlagTokens(flags) + (BitNames(init) + [name]);
      }
    }
  }

  /** The flag names of the registration are those of the base flags
      followed by the application-class bits. */
  lemma ObjectTypeFlagTokens(c: ClassSymbol)
    ensures FlagTokens(ObjectTypeFlags(c)) == FlagTokens(BaseFlags(c)) + BitNames(AppClassBits(c))
  {
    FlagTokensAppendBits(BaseFlags(c), AppClassBits(c));
  }

  /** A flags expression with a single flag name lists just that name. */
  lemma SingleFlagTokens(flag: string)
    requires IsTrimmed(flag) && '|' !in flag
    ensures FlagTokens(flag) == [flag]
  {
    assert Split(flag, '|') == [flag];
    assert TrimAll([flag]) == [Trim(flag)];
    TrimOfTrimmed(flag);
  }

  /** The default reference flags name two flags. */
  lemma DefaultRefFlagTokens()
    ensures FlagTokens(DefaultRefFlags) == ["asOBJ_REF", "asOBJ_NOCOUNT"]
  {
    var a, b := "asOBJ_REF", "asOBJ_NOCOUNT";
    assert IsTrimmed(a) && '|' !in a;
    assert IsTrimmed(b) && '|' !in b;
    assert DefaultRefFlags == a + " | " + b;
    SingleFlagTokens(a);
    FlagTokensAppendBit(a, b);
  }

  /** The default value flags name two flags. */
  lemma DefaultValueFlagTokens()
    ensures FlagTokens(DefaultValueFlags) == ["asOBJ_VALUE", "asOBJ_POD"]
  {
    var a, b := "asOBJ_VALUE", "asOBJ_POD";
    assert IsTrimmed(a) && '|' !in a;
    assert IsTrimmed(b) && '|' !in b;
    assert DefaultValueFlags == a + " | " + b;
    SingleFlagTokens(a);
    FlagTokensAppendBit(a, b);
  }
}

=== FILE: strings.dfy ===
/** The .NET string operations the generator relies on, stated over
    `seq<char>`: ordinal substring search, prefix/suffix tests, `Trim` and
    `Replace`; also joining with a separator, as the generator's loops do,
    and splitting at a separator, for reading flags back. */
module Strings {

  /** `Char.IsWhiteSpace`: the control characters U+0009..U+000D, U+0085 and
      every member of the Unicode separator categories (Zs, Zl, Zp). The
      regular-expression class `\s` denotes the same set. */
  predicate IsWhiteSpace(c: char) {
    || ('\t' <= c <= '\r')
    || c == ' '
    || c == '\U{0085}'
    || c == '\U{00A0}'
    || c == '\U{1680}'
    || ('\U{2000}' <= c <= '\U{200A}')
    || c == '\U{2028}'
    || c == '\U{2029}'
    || c == '\U{202F}'
    || c == '\U{205F}'
    || c == '\U{3000}'
  }

  predicate AllWhiteSpace(s: string) {
    forall i :: 0 <= i < |s| ==> IsWhiteSpace(s[i])
  }

  /** Neither end of `s` is whitespace. */
  predicate IsTrimmed(s: string) {
    |s| == 0 || (!IsWhiteSpace(s[0]) && !IsWhiteSpace(s[|s| - 1]))
  }

  /** `sub` occurs in `s` starting at index `i`. */
  predicate OccursAt(s: string, sub: string, i: int) {
    0 <= i && i + |sub| <= |s| && s[i..i + |sub|] == sub
  }

  /** Ordinal `String.Contains`: `sub` starts at the head of `s` or occurs in
      its tail. */
  predicate Contains(s: string, sub: string)
    decreases |s|
  {
    StartsWith(s, sub) || (|s| > 0 && Contains(s[1..], sub))
  }

  predicate StartsWith(s: string, prefix: string) {
    |prefix| <= |s| && s[..|prefix|] == prefix
  }

  predicate EndsWith(s: string, suffix: string) {
    |suffix| <= |s| && s[|s| - |suffix|..] == suffix
  }

  /** An occurrence anywhere makes the string contain `sub`. */
  lemma {:induction false} ContainsAt(s: string, sub: string, i: int)
    requires OccursAt(s, sub, i)
    ensures Contains(s, sub)
    decreases i
  {
    if i == 0 {
      assert s[..|sub|] == s[0..|sub|];
    } else {
      assert s[1..][i - 1..i - 1 + |sub|] == s[i..i + |sub|];
      ContainsAt(s[1..], sub, i - 1);
    }
  }

  /** A string that contains `sub` has an occurrence of it. */
  lemma {:induction false} ContainsWitness(s: string, sub: string) returns (i: nat)
    requires Contains(s, sub)
    ensures i <= |s| && OccursAt(s, sub, i)
    decreases |s|
  {
    if StartsWith(s, sub) {
      i := 0;
      assert s[0..|sub|] == s[..|sub|];
    } else {
      var j := ContainsWitness(s[1..], sub);
      i := j + 1;
      assert s[1..][j..j + |sub|] == s[i..i + |sub|];
    }
  }

  /** Without an occurrence at any index the string does not contain `sub`. */
  lemma AbsentEverywhere(s: string, sub: string)
    requires forall i | 0 <= i <= |s| :: !OccursAt(s, sub, i)
    ensures !Contains(s, sub)
  {
    AbsentFrom(s, sub, 0);
    assert s[0..] == s;
  }

  /** Without an occurrence at `k` or later, the suffix from `k` does not
      contain `sub`. */
  lemma {:induction false} AbsentFrom(s: string, sub: string, k: nat)
    requires k <= |s|
    requires forall i | k <= i <= |s| :: !OccursAt(s, sub, i)
    ensures !Contains(s[k..], sub)
    decreases |s| - k
  {
    var t := s[k..];
    assert !StartsWith(t, sub) by {
      assert !OccursAt(s, sub, k);
      if |sub| <= |t| {
        assert t[..|sub|] == s[k..k + |sub|];
      }
    }
    if k < |s| {
      AbsentFrom(s, sub, k + 1);
      assert t[1..] == s[k + 1..];
    }
  }

  /** The recursive definition agrees with "`sub` occurs at some index". */
  lemma ContainsOccurs(s: string, sub: string)
    ensures Contains(s, sub) <==> exists i | 0 <= i <= |s| :: OccursAt(s, sub, i)
  {
    if Contains(s, sub) {
      var i := ContainsWitness(s, sub);
    } else if exists i | 0 <= i <= |s| :: OccursAt(s, sub, i) {
      var i :| 0 <= i <= |s| && OccursAt(s, sub, i);
      ContainsAt(s, sub, i);
    }
  }

  /** Leading whitespace removed. */
  function TrimStart(s: string): string
    decreases |s|
  {
    if |s| > 0 && IsWhiteSpace(s[0]) then TrimStart(s[1..]) else s
  }

  /** `TrimStart` leaves a suffix of `s` that does not start with whitespace
      and cuts off only whitespace. */
  lemma {:induction false} TrimStartFacts(s: string)
    ensures |TrimStart(s)| <= |s| && TrimStart(s) == s[|s| - |TrimStart(s)|..]
    ensures AllWhiteSpace(s[..|s| - |TrimStart(s)|])
    ensures |TrimStart(s)| == 0 || !IsWhiteSpace(TrimStart(s)[0])
    decreases |s|
  {
    if |s| > 0 && IsWhiteSpace(s[0]) {
      TrimStartFacts(s[1..]);
      var k := |s| - |TrimStart(s)|;
      assert s[1..][k - 1..] == s[k..];
      assert forall i :: 0 < i < k ==> s[..k][i] == s[1..][..k - 1][i - 1];
    }
  }

  /** Trailing whitespace removed. */
  function TrimEnd(s: string): string
    decreases |s|
  {
    if |s| > 0 && IsWhiteSpace(s[|s| - 1]) then TrimEnd(s[..|s| - 1]) else s
  }

  /** `TrimEnd` leaves a prefix of `s` that does not end with whitespace and
      cuts off only whitespace. */
  lemma {:induction false} TrimEndFacts(s: string)
    ensures |TrimEnd(s)| <= |s| && TrimEnd(s) == s[..|TrimEnd(s)|]
    ensures AllWhiteSpace(s[|TrimEnd(s)|..])
    ensures |TrimEnd(s)| == 0 || !IsWhiteSpace(TrimEnd(s)[|TrimEnd(s)| - 1])
    decreases |s|
  {
    if |s| > 0 && IsWhiteSpace(s[|s| - 1]) {
      var p := s[..|s| - 1];
      TrimEndFacts(p);
      var n := |TrimEnd(s)|;
      assert p[..n] == s[..n];
      assert forall j :: 0 <= j < |s| - 1 - n ==> s[n..][j] == p[n..][j];
      assert s[n..][|s| - 1 - n] == s[|s| - 1];
    }
  }

  /** `String.Trim()`: leading and trailing whitespace removed. */
  function Trim(s: string): (r: string)
    ensures IsTrimmed(r) && |r| <= |s|
  {
    var t := TrimStart(s);
    TrimStartFacts(s);
    TrimEndFacts(t);
    var r := TrimEnd(t);
    assert |r| > 0 ==> r[0] == t[0];
    r
  }

  /** The trimmed string is the slice of `s` between two cut points, with
      only whitespace cut off on either side. */
  lemma TrimSlice(s: string) returns (a: nat, b: nat)
    ensures a <= b <= |s| && Trim(s) == s[a..b]
    ensures AllWhiteSpace(s[..a]) && AllWhiteSpace(s[b..])
  {
    var t := TrimStart(s);
    TrimStartFacts(s);
    TrimEndFacts(t);
    var r := TrimEnd(t);
    a, b := |s| - |t|, |s| - |t| + |r|;
    assert s[b..] == t[|r|..];
  }

  lemma {:induction false} TrimStartOfTrimmed(s: string)
    requires IsTrimmed(s)
    ensures TrimStart(s) == s
  {
  }

  lemma {:induction false} TrimEndOfTrimmed(s: string)
    requires IsTrimmed(s)
    ensures TrimEnd(s) == s
  {
  }

  /** Trimming a string that is already trimmed changes nothing. */
  lemma TrimOfTrimmed(s: string)
    requires IsTrimmed(s)
    ensures Trim(s) == s
  {
    TrimStartOfTrimmed(s);
    TrimEndOfTrimmed(s);
  }

  /** Trailing whitespace added to a string is removed again by `TrimEnd`. */
  lemma {:induction false} TrimEndAppendSpace(s: string)
    ensures TrimEnd(s + " ") == TrimEnd(s)
  {
    assert (s + " ")[..|s|] == s;
  }

  /** `TrimStart` commutes with appending a space, unless everything is
      whitespace. */
  lemma {:induction false} TrimStartAppendSpace(s: string)
    ensures AllWhiteSpace(s) ==> TrimStart(s + " ") == ""
    ensures !AllWhiteSpace(s) ==> TrimStart(s + " ") == TrimStart(s) + " "
    decreases |s|
  {
    if |s| == 0 {
      assert TrimStart(" ") == TrimStart("");
    } else if IsWhiteSpace(s[0]) {
      var t := s[1..];
      assert (s + " ")[0] == s[0] && (s + " ")[1..] == t + " ";
      assert TrimStart(s + " ") == TrimStart(t + " ");
      assert TrimStart(s) == TrimStart(t);
      TrimStartAppendSpace(t);
      assert AllWhiteSpace(s) <==> AllWhiteSpace(t) by {
        assert forall i :: 0 <= i < |t| ==> t[i] == s[i + 1];
      }
    } else {
      assert (s + " ")[0] == s[0];
      assert TrimStart(s + " ") == s + " ";
      assert !AllWhiteSpace(s);
    }
  }

  /** A space appended to a string makes no difference once it is trimmed. */
  lemma TrimAppendSpace(s: string)
    ensures Trim(s + " ") == Trim(s)
  {
    TrimStartAppendSpace(s);
    TrimStartFacts(s);
    if !AllWhiteSpace(s) {
      TrimEndAppendSpace(TrimStart(s));
    }
  }

  /** A space put in front of a trimmed string is removed again by `Trim`. */
  lemma TrimPrependSpace(s: string)
    requires IsTrimmed(s)
    ensures Trim(" " + s) == s
  {
    assert (" " + s)[1..] == s;
    TrimStartOfTrimmed(s);
    TrimEndOfTrimmed(s);
  }

  /** Ordinal `String.Replace(oldValue, newValue)`: scans left to right and replaces
      every non-overlapping occurrence of `pattern` by `replacement`. */
  function Replace(s: string, pattern: string, replacement: string): (r: string)
    requires |pattern| > 0
    decreases |s|
  {
    if |s| < |pattern| then s
    else if s[..|pattern|] == pattern then replacement + Replace(s[|pattern|..], pattern, replacement)
    else [s[0]] + Replace(s[1..], pattern, replacement)
  }

  /** A string in which `pattern` does not occur comes back unchanged. */
  lemma {:induction false} ReplaceAbsent(s: string, pattern: string, replacement: string)
    requires |pattern| > 0
    requires !Contains(s, pattern)
    ensures Replace(s, pattern, replacement) == s
    decreases |s|
  {
    if |s| >= |pattern| {
      ReplaceAbsent(s[1..], pattern, replacement);
    }
  }

  /** Replacing a single character: every character of the result is either a
      character of `s` other than `c` or a character of `replacement`. */
  lemma {:induction false} ReplaceCharCharacters(s: string, c: char, replacement: string)
    ensures forall x :: x in Replace(s, [c], replacement) ==> (x in s && x != c) || x in replacement
    decreases |s|
  {
    if |s| >= 1 {
      ReplaceCharCharacters(s[1..], c, replacement);
      if s[..1] == [c] {
        assert s[1..] == s[|[c]|..];
      } else {
        assert s[0] != c;
      }
    }
  }

  /** A prefix free of the replaced character is copied unchanged. */
  lemma {:induction false} ReplaceCharSkip(p: string, c: char, replacement: string, rest: string)
    requires c !in p
    ensures Replace(p + rest, [c], replacement) == p + Replace(rest, [c], replacement)
    decreases |p|
  {
    if |p| > 0 {
      assert (p + rest)[..1] == [p[0]];
      assert (p + rest)[1..] == p[1..] + rest;
      ReplaceCharSkip(p[1..], c, replacement, rest);
    } else {
      assert p + rest == rest;
    }
  }

  /** A character that does not occur does not occur as a substring. */
  lemma CharAbsent(s: string, c: char)
    requires c !in s
    ensures !Contains(s, [c])
  {
    forall i | 0 <= i <= |s|
      ensures !OccursAt(s, [c], i)
    {
      if i < |s| {
        assert s[i..i + 1] == [s[i]];
      }
    }
    AbsentEverywhere(s, [c]);
  }

  /** The pattern at the head of the string is replaced, and the scan goes on
      after it. */
  lemma ReplaceHit(pattern: string, replacement: string, rest: string)
    requires |pattern| > 0
    ensures Replace(pattern + rest, pattern, replacement) == replacement + Replace(rest, pattern, replacement)
  {
    assert (pattern + rest)[..|pattern|] == pattern;
    assert (pattern + rest)[|pattern|..] == rest;
  }

  /** A string lacking one of the pattern's characters comes back unchanged. */
  lemma ReplaceMissingChar(s: string, pattern: string, replacement: string, j: nat)
    requires j < |pattern| && pattern[j] !in s
    ensures Replace(s, pattern, replacement) == s
  {
    forall i | 0 <= i <= |s|
      ensures !OccursAt(s, pattern, i)
    {
      if i + |pattern| <= |s| {
        assert s[i..i + |pattern|][j] == s[i + j];
      }
    }
    AbsentEverywhere(s, pattern);
    ReplaceAbsent(s, pattern, replacement);
  }

  /** A string shorter than the pattern comes back unchanged. */
  lemma ReplaceShort(s: string, pattern: string, replacement: string)
    requires |s| < |pattern|
    ensures Replace(s, pattern, replacement) == s
  {
  }

  lemma StartsWithConcat(a: string, b: string)
    ensures StartsWith(a + b, a)
  {
    assert (a + b)[..|a|] == a;
  }

  lemma EndsWithConcat(a: string, b: string)
    ensures EndsWith(a + b, b)
  {
    assert (a + b)[|a + b| - |b|..] == b;
  }

  /** Text written between a fixed opening and a fixed closing starts with
      the one and ends with the other. */
  lemma Framed(pre: string, body: string, post: string)
    ensures StartsWith(pre + body + post, pre) && EndsWith(pre + body + post, post)
  {
    assert (pre + body + post)[..|pre|] == pre;
    assert (pre + body + post)[|pre + body + post| - |post|..] == post;
  }

  lemma EndsWithAppendLeft(a: string, b: string, suffix: string)
    requires EndsWith(b, suffix)
    ensures EndsWith(a + b, suffix)
  {
    assert (a + b)[|a + b| - |suffix|..] == b[|b| - |suffix|..];
  }

  /** A string occurs in any text built around it. */
  lemma ContainsMiddle(p: string, t: string, q: string)
    ensures Contains(p + t + q, t)
  {
    assert (p + t + q)[|p|..|p| + |t|] == t;
    ContainsAt(p + t + q, t, |p|);
  }

  /** A fragment written after some text, inside a later part, is still
      contained. */
  lemma ContainsAfter(a: string, p: string, t: string, q: string)
    ensures Contains(a + (p + t + q), t)
  {
    assert a + (p + t + q) == (a + p) + t + q;
    ContainsMiddle(a + p, t, q);
  }

  /** A prefix of a string is contained wherever the string is. */
  lemma ContainsPrefix(s: string, t: string, u: string)
    requires StartsWith(t, u)
    requires Contains(s, t)
    ensures Contains(s, u)
  {
    var i := ContainsWitness(s, t);
    assert s[i..i + |u|] == t[..|u|];
    ContainsAt(s, u, i);
  }

  /** The parts with `sep` between them, built the way a loop that writes
      `sep` before every element but the first builds it. */
  function Join(parts: seq<string>, sep: string): (r: string)
    decreases |parts|
  {
    if |parts| == 0 then ""
    else if |parts| == 1 then parts[0]
    else Join(parts[..|parts| - 1], sep) + sep + parts[|parts| - 1]
  }

  /** Joining one more part adds the separator and the part. */
  lemma JoinSnoc(parts: seq<string>, last: string, sep: string)
    ensures Join(parts + [last], sep) == Join(parts, sep) + (if |parts| == 0 then "" else sep) + last
  {
    assert (parts + [last])[..|parts|] == parts;
    if |parts| == 0 {
      assert Join(parts, sep) + "" + last == last;
    }
  }

  /** Index of the last occurrence of `c` in `s`. */
  function LastIndex(s: string, c: char): (i: nat)
    requires c in s
    ensures i < |s| && s[i] == c && c !in s[i + 1..]
    decreases |s|
  {
    if s[|s| - 1] == c then |s| - 1
    else
      assert c in s[..|s| - 1] by {
        var k :| 0 <= k < |s| && s[k] == c;
        assert s[..|s| - 1][k] == c;
      }
      LastIndex(s[..|s| - 1], c)
  }

  /** The pieces between the occurrences of `sep`: how a reader of a
      flags expression takes it apart. */
  function Split(s: string, sep: char): (parts: seq<string>)
    ensures |parts| >= 1
    ensures forall k :: 0 <= k < |parts| ==> sep !in parts[k]
    ensures Join(parts, [sep]) == s
    decreases |s|
  {
    if sep !in s then [s]
    else
      var i := LastIndex(s, sep);
      var parts := Split(s[..i], sep) + [s[i + 1..]];
      assert parts[..|parts| - 1] == Split(s[..i], sep);
      assert s == s[..i] + [sep] + s[i + 1..];
      parts
  }

  /** Where the last `sep` sits when a separator-free tail follows it. */
  lemma {:induction false} LastIndexBeforeTail(a: string, c: char, b: string)
    requires c !in b
    ensures LastIndex(a + [c] + b, c) == |a|
    decreases |b|
  {
    var s := a + [c] + b;
    if |b| > 0 {
      assert s[..|s| - 1] == a + [c] + b[..|b| - 1];
      LastIndexBeforeTail(a, c, b[..|b| - 1]);
    }
  }

  /** Splitting undoes joining with a separator the pieces do not contain. */
  lemma {:induction false} SplitAppend(a: string, c: char, b: string)
    requires c !in b
    ensures Split(a + [c] + b, c) == Split(a, c) + [b]
  {
    var s := a + [c] + b;
    assert c in s by { assert s[|a|] == c; }
    LastIndexBeforeTail(a, c, b);
    assert s[..|a|] == a;
    assert s[|a| + 1..] == b;
  }

  /** The texts `f(x)` of all `x` in `xs`, one after the other: what a loop
      appending `f(x)` for every element writes. */
  function ConcatMap<T>(xs: seq<T>, f: T -> string): (r: string)
    decreases |xs|
  {
    if |xs| == 0 then "" else f(xs[0]) + ConcatMap(xs[1..], f)
  }

  /** Concatenation distributes over splitting the input list. */
  lemma {:induction false} ConcatMapAppend<T>(xs: seq<T>, ys: seq<T>, f: T -> string)
    ensures ConcatMap(xs + ys, f) == ConcatMap(xs, f) + ConcatMap(ys, f)
    decreases |xs|
  {
    if |xs| > 0 {
      assert (xs + ys)[1..] == xs[1..] + ys;
      ConcatMapAppend(xs[1..], ys, f);
    } else {
      assert xs + ys == ys;
    }
  }

  /** When every element's text is empty or ends its line, so does the
      whole. */
  lemma {:induction false} ConcatMapEndsLines<T>(xs: seq<T>, f: T -> string)
    requires forall i :: 0 <= i < |xs| ==> f(xs[i]) == "" || EndsWith(f(xs[i]), "\n")
    ensures ConcatMap(xs, f) == "" || EndsWith(ConcatMap(xs, f), "\n")
    decreases |xs|
  {
    if |xs| > 0 {
      var rest := ConcatMap(xs[1..], f);
      assert forall i :: 0 <= i < |xs[1..]| ==> xs[1..][i] == xs[i + 1];
      ConcatMapEndsLines(xs[1..], f);
      if rest != "" {
        EndsWithAppendLeft(f(xs[0]), rest, "\n");
      } else {
        assert ConcatMap(xs, f) == f(xs[0]);
      }
    }
  }

  /** Elements that contribute no text can be left out. */
  lemma {:induction false} ConcatMapSilent<T>(xs: seq<T>, f: T -> string)
    requires forall i :: 0 <= i < |xs| ==> f(xs[i]) == ""
    ensures ConcatMap(xs, f) == ""
    decreases |xs|
  {
    if |xs| > 0 {
      assert forall i :: 0 <= i < |xs[1..]| ==> xs[1..][i] == xs[i + 1];
      ConcatMapSilent(xs[1..], f);
    }
  }
}

=== FILE: symbols.dfy ===
/** The symbol table the generator reads. It is loaded from Doxygen XML by a
    library that is not part of this model, so every helper the generator
    calls on a symbol appears here as a field holding that helper's result. */
module Symbols {
  import opened Wrappers

  datatype Visibility = Public | Protected | Private

  /** The symbol kinds the generator distinguishes; every other kind (enums,
      typedefs, signals, ...) is `Other`. */
  datatype Kind = Function | Variable | Other

  /** The result of `ArgStringWithTypes` / `ArgStringWithoutTypes`: a
      parenthesised argument list, so at least the two parentheses long. */
  type ArgString = s: string | |s| >= 2 witness "()"

  /** One parameter of a function member. `basicType` is the `BasicType()`
      helper's result: the type spelling without const, reference and pointer
      decoration. */
  datatype Parameter = Parameter(typeName: string, comment: string, basicType: string)

  /** A child symbol of a class: a function, variable or anything else. */
  datatype Member = Member(
    name: string,
    kind: Kind,
    visibility: Visibility,
    attributes: seq<string>,
    typeName: string,        // the declared (return) type spelling
    parameters: seq<Parameter>,
    isStatic: bool,
    isConst: bool,
    isArray: bool,                      // IsArray()
    parameterListWithoutNames: string,  // FunctionParameterListWithoutNames()
    argsWithTypes: ArgString,           // ArgStringWithTypes()
    argsWithoutTypes: ArgString         // ArgStringWithoutTypes()
  )

  /** A class symbol. The class-level helpers are reduced to what the
      generator reads from their results: whether a symbol was found and, if
      so, its visibility. */
  datatype ClassSymbol = ClassSymbol(
    name: string,
    attributes: seq<string>,
    children: seq<Member>,
    isAbstract: bool,                      // IsClassAbstract()
    ctors: seq<Visibility>,                // AllClassCtors()
    ctor: Option<Visibility>,              // ClassCtor()
    copyCtor: Option<Visibility>,          // ClassCopyCtor()
    dtor: Option<Visibility>,              // ClassDtor()
    assignmentOperator: Option<Visibility>,// ClassAssignmentOperator()
    assignmentChild: Option<Visibility>    // FindChildByName("operator=")
  )

  /** A helper result that exists and is not public. */
  predicate NonPublic(v: Option<Visibility>) {
    v.Some? && v.value != Public
  }

  /** The member is a constructor of the class requested as `className`. */
  predicate IsCtorOf(f: Member, className: string) {
    f.name == className
  }

  /** The member is the destructor of the class requested as `className`. */
  predicate IsDtorOf(f: Member, className: string) {
    f.name == "~" + className
  }
}

=== FILE: trampolines.dfy ===
/** The bridging constructor and destructor functions written before the
    registration function (Program.cs:193-252). */
module Trampolines {
  import opened Wrappers
  import opened Strings
  import opened Symbols
  import opened Classifier

  /** A parameter list turned into an identifier fragment: commas and spaces
      become underscores, `&` becomes `ref` and `*` becomes `ptr`, in that
      order. */
  function Mangle(paramList: string): (token: string)
    ensures forall i :: 0 <= i < |token| ==> (token[i] != ',' && token[i] != ' '
                                             && token[i] != '&' && token[i] != '*')
  {
    var s1 := Replace(paramList, ",", "_");
    var s2 := Replace(s1, " ", "_");
    var s3 := Replace(s2, "&", "ref");
    var s4 := Replace(s3, "*", "ptr");
    ReplaceCharCharacters(paramList, ',', "_");
    ReplaceCharCharacters(s1, ' ', "_");
    ReplaceCharCharacters(s2, '&', "ref");
    ReplaceCharCharacters(s3, '*', "ptr");
    assert forall i :: 0 <= i < |s4| ==> s4[i] in s4;
    s4
  }

  /** An identifier-safe list comes through the mangling unchanged. */
  lemma MangleIdentity(s: string)
    requires ',' !in s && ' ' !in s && '&' !in s && '*' !in s
    ensures Mangle(s) == s
  {
    CharAbsent(s, ',');
    CharAbsent(s, ' ');
    CharAbsent(s, '&');
    CharAbsent(s, '*');
    ReplaceAbsent(s, ",", "_");
    ReplaceAbsent(s, " ", "_");
    ReplaceAbsent(s, "&", "ref");
    ReplaceAbsent(s, "*", "ptr");
  }

  /** A separator between two words becomes one underscore. */
  lemma MangleSeparator(a: string, sep: char, b: string)
    requires sep == ',' || sep == ' '
    requires ',' !in a + b && ' ' !in a + b && '&' !in a + b && '*' !in a + b
    ensures Mangle(a + [sep] + b) == a + "_" + b
  {
    var s, u := a + [sep] + b, a + "_" + b;
    var s1 := Replace(s, ",", "_");
    var s2 := Replace(s1, " ", "_");
    assert Mangle(s) == Replace(Replace(s2, "&", "ref"), "*", "ptr");
    SafeAroundUnderscore(a, b);
    if sep == ',' {
      SeparatorReplaced(a, sep, b);
      CharAbsent(u, ' ');
      ReplaceAbsent(u, " ", "_");
    } else {
      assert ',' !in s by {
        assert forall x :: x in s ==> x in a + b || x == ' ';
      }
      CharAbsent(s, ',');
      ReplaceAbsent(s, ",", "_");
      SeparatorReplaced(a, sep, b);
    }
    assert s2 == u;
    CharAbsent(u, '&');
    ReplaceAbsent(u, "&", "ref");
    CharAbsent(u, '*');
    ReplaceAbsent(u, "*", "ptr");
  }

  /** Joining two identifier-safe words with an underscore keeps them safe. */
  lemma SafeAroundUnderscore(a: string, b: string)
    requires ',' !in a + b && ' ' !in a + b && '&' !in a + b && '*' !in a + b
    ensures ',' !in a + "_" + b && ' ' !in a + "_" + b && '&' !in a + "_" + b && '*' !in a + "_" + b
  {
    assert forall x :: x in a + "_" + b ==> x in a + b || x == '_';
  }

  /** The only separator between two words that lack it becomes `_`. */
  lemma SeparatorReplaced(a: string, sep: char, b: string)
    requires sep !in a + b
    ensures Replace(a + [sep] + b, [sep], "_") == a + "_" + b
  {
    assert sep !in a by {
      assert forall x :: x in a ==> x in a + b;
    }
    assert sep !in b by {
      assert forall x :: x in b ==> x in a + b;
    }
    assert a + [sep] + b == a + ([sep] + b);
    ReplaceCharSkip(a, sep, "_", [sep] + b);
    ReplaceHit([sep], "_", b);
    CharAbsent(b, sep);
    ReplaceAbsent(b, [sep], "_");
  }

  /** The mangling is not injective: a constructor taking `unsigned int` and
      one taking `unsigned, int` get the same token, so their trampolines
      would carry the same name. */
  lemma MangleCollides()
    ensures Mangle("unsigned int") == Mangle("unsigned,int")
  {
    var a, b := "unsigned", "int";
    assert "unsigned int" == a + [' '] + b;
    assert "unsigned,int" == a + [','] + b;
    MangleSeparator(a, ' ', b);
    MangleSeparator(a, ',', b);
  }

  /** The inside of a parenthesised argument list (`Substring(1, Length - 2)`). */
  function Inner(args: ArgString): string {
    args[1..|args| - 1]
  }

  /** The name of the trampoline `f` gets, if any: only public constructors of
      a class that is not abstract and public destructors get one; a
      constructor's is a factory for a reference type and a placement
      constructor for a value type. */
  function TrampolineName(className: string, c: ClassSymbol, f: Member): (name: Option<string>)
    ensures name.Some? <==> f.visibility == Public
                            && ((IsCtorOf(f, className) && !c.isAbstract) || IsDtorOf(f, className))
    ensures name.Some? && IsCtorOf(f, className) && IsReferenceType(c)
            ==> name.value == className + "_Factory_" + Mangle(f.parameterListWithoutNames)
    ensures name.Some? && IsCtorOf(f, className) && !IsReferenceType(c)
            ==> name.value == className + "_ctor_" + Mangle(f.parameterListWithoutNames)
    ensures name.Some? && IsDtorOf(f, className) ==> name.value == className + "_dtor"
  {
    if f.visibility != Public then None
    else if IsCtorOf(f, className) then
      if c.isAbstract then None
      else if IsReferenceType(c) then Some(className + "_Factory_" + Mangle(f.parameterListWithoutNames))
      else Some(className + "_ctor_" + Mangle(f.parameterListWithoutNames))
    else if IsDtorOf(f, className) then Some(className + "_dtor")
    else None
  }

  /** The opening of the trampoline's declaration, up to the parenthesis:
      a factory returns a pointer, every other trampoline returns nothing. */
  function Declaration(className: string, c: ClassSymbol, f: Member, name: string): string {
    if IsCtorOf(f, className) && IsReferenceType(c) then "static " + className + " *" + name + "("
    else "static void " + name + "("
  }

  /** The trampoline's parameters and the closing parenthesis: the
      constructor's own arguments followed by the object pointer, or the
      memory a destructor runs on. */
  function TrampolineParameters(className: string, f: Member): string {
    if IsCtorOf(f, className) then
      var inner := Inner(f.argsWithTypes);
      var args := if |inner| > 0 then inner + ", " else inner;
      args + className + " *self)\n"
    else "void *memory)\n"
  }

  /** The one statement of the trampoline's body: a factory allocates, a
      placement constructor constructs in place, a destructor destroys. */
  function TrampolineStatement(className: string, c: ClassSymbol, f: Member): string {
    if IsCtorOf(f, className) then
      (if IsReferenceType(c) then "\treturn new " else "\tnew(self) ")
      + className + f.argsWithoutTypes + ";\n"
    else "\t((" + className + "*)memory)->~" + className + "();\n"
  }

  /** The trampoline text written for one child of the class: the
      declaration of the function `TrampolineName` names, then its
      parameters and its body. A reference type's constructor gets a
      factory that returns a new object, a value type's constructor a
      placement `new` on the memory it is given. */
  function Trampoline(className: string, c: ClassSymbol, f: Member): (text: string)
    ensures (text == "") <==> TrampolineName(className, c, f).None?
    ensures TrampolineName(className, c, f).Some? ==>
              StartsWith(text, Declaration(className, c, f, TrampolineName(className, c, f).value))
    ensures TrampolineName(className, c, f).Some? && IsCtorOf(f, className) && IsReferenceType(c)
            ==> Contains(text, "\treturn new " + className + f.argsWithoutTypes + ";\n")
    ensures TrampolineName(className, c, f).Some? && IsCtorOf(f, className) && !IsReferenceType(c)
            ==> Contains(text, "\tnew(self) " + className + f.argsWithoutTypes + ";\n")
    ensures TrampolineName(className, c, f).Some? && IsDtorOf(f, className)
            ==> Contains(text, "\t((" + className + "*)memory)->~" + className + "();\n")
  {
    match TrampolineName(className, c, f)
    case None => ""
    case Some(name) =>
      var decl := Declaration(className, c, f, name);
      var head := decl + TrampolineParameters(className, f) + "{\n";
      var stmt := TrampolineStatement(className, c, f);
      var text := head + stmt + "}\n\n";
      assert text[..|decl|] == decl;
      ContainsMiddle(head, stmt, "}\n\n");
      assert IsDtorOf(f, className) ==> !IsCtorOf(f, className);
      text
  }

  /** `GenerateCtorFunctions` for a class found in the symbol table: the
      trampolines of its children, in declaration order. */
  function CtorFunctions(className: string, c: ClassSymbol): string {
    ConcatMap(c.children, (f: Member) => Trampoline(className, c, f))
  }

  /** An abstract class gets no constructor trampoline, only destructor
      trampolines; a class without public constructors or destructors gets
      none at all. */
  lemma AbstractClassTrampolines(className: string, c: ClassSymbol)
    requires c.isAbstract || forall i :: 0 <= i < |c.children| ==>
                               !(c.children[i].visibility == Public && IsCtorOf(c.children[i], className))
    requires forall i :: 0 <= i < |c.children| ==>
               !(c.children[i].visibility == Public && IsDtorOf(c.children[i], className))
    ensures CtorFunctions(className, c) == ""
  {
    ConcatMapSilent(c.children, (f: Member) => Trampoline(className, c, f));
  }
}

=== FILE: wrappers.dfy ===
/** The optional-value datatype used wherever the generator reads a symbol
    helper that may return null. */
module Wrappers {

  datatype Option<+T> = None | Some(value: T)
}
